=== FILE: README.md ===
# pypdfbookmarks: the bookmark tree, modelled in Dafny

pypdfbookmarks edits the outline (the "bookmarks") of a PDF file. Its core
is the class `BookmarkNode`. Each node has a title, a 1-based page number,
a parent back-reference (`None` for the root) and an ordered list of
children. The program:

- loads a tree from a PDF reader's outline, mapping page-object ids to
  page indices;
- edits the tree in place: add a child, re-parent a node, move a node
  among its siblings, remove a node;
- prints the tree and the children of a node;
- writes the tree back, as outline entries, into a PDF writer.

The project is laid out as follows:

- `wrappers.dfy` (`Wrappers`): `Option`, `Result` and `Outcome`, plus
  `PyError`. `PyError` names the Python exceptions the model represents:
  an attribute access on `None`, `list.index`/`list.remove` of a missing
  item, a dictionary `KeyError`, and the OverflowError of `list.insert`
  for an index outside the C `Py_ssize_t` range. The core can also raise
  RecursionError and TypeError; "## Left out" says where.
- `pylists.dfy` (`PyLists`): the Python list operations the editing
  methods rely on.
  - `list.index`, `pop`, `remove`, and `insert` with its index clamping
    and its 64-bit `Py_ssize_t` index range.
  - `MoveItem`, the pop-then-insert of `move_to`.
- `formatting.dfy` (`Formatting`): decimal formatting of integers and the
  `__repr__` text `"<title> -> p<page>[, c<children>]"`, with parsers
  that read them back.
- `trees.dfy` (`Trees`): the value view of a bookmark tree (`Tree`).
  - `Emit`, the pre-order walk of `add_to_pdf`. It produces a log of
    outline entries, and the parent handle of each entry is the position
    of an earlier entry.
  - `Decode`, an independent reader of such a log.
  - `Enumerate`, `TreeLines` and `KidLines`, the listing of `print_tree`.
- `pagetree.dfy` (`PageTree`): the PDF page tree (`/Pages`, `/Page` and
  other objects) and `_setup_page_id_to_num`.
  - The method walks the tree with a loop and recursion.
  - `PageIdMap` is the function it is proved against.
- `outline.dfy` (`OutlineImport`): the outline as the reader returns it.
  Entries and nested lists are modelled as `OutlineItem`.
  - `GenKids` is the value-level meaning of `_generate_tree`: the
    subtrees it creates, or the exception it raises.
  - The lemmas relate an import to the entries and to a later export.
- `bookmarks.dfy` (`Bookmarks`): `BookmarkNode` as a class over the
  heap. Its methods update `parent` and `children` in place.
  - `Console` collects printed lines.
  - `PdfWriter` records added pages and outline entries. Each outline
    entry's handle is its position in the log.
  - The recursive walks are proved against `Trees` through `Snapshot`.
    `Snapshot` is the tree value a node reaches. It is defined when the
    node's reachable nodes are drawn from a finite set `nodes` and form
    no cycle (`Finite`).
  - `KidsOf` and `ParentsOf` record the children lists and parents of
    a set of nodes as maps, so that the editing methods can state their
    effect on every tree at once.
- `links.dfy` (`Links`): well-formed trees over those recorded links
  (`TreeIn`), and the proof that re-parenting a node below a node outside
  its own subtree keeps every parentless root's tree well formed.

## Model

| member | source | states |
|---|---|---|
| Bookmarks.BookmarkNode.constructor | pypdfbookmarks.py:9-15 | a new node has no parent, no children, the given title and page number 0 |
| Bookmarks.BookmarkNode.Repr | pypdfbookmarks.py:123-128 | `__repr__` is `Describe` of the title, the page number and the child count; `Bookmarks.BookmarkNode.ReprParses` shows it loses none of them |
| Bookmarks.BookmarkNode.AddChild | pypdfbookmarks.py:30-33 | the child is appended at the end of the children and its parent becomes this node. In the recorded links of any set of nodes, only this node's list and the child's parent change. Attaching a parentless node with a well-formed tree that does not reach this node keeps every parentless root's tree finite and linked |
| Bookmarks.BookmarkNode.RemoveChild | pypdfbookmarks.py:41 | `list.remove` on the children drops the first occurrence of the child, and no other recorded link changes |
| Bookmarks.BookmarkNode.SetParent | pypdfbookmarks.py:36-41 | a `None` new parent raises AttributeError and changes nothing. Otherwise the node is appended to the new parent's children and its parent is set. Then, if there was an old parent, the first occurrence of the node is removed from the old parent's list. That removal raises ValueError, after the append, exactly when the node was not in the old list. When old and new parent coincide, the node ends up moved to the end. No other field of any node changes. In a well-formed tree (the node listed once under its old parent and not yet under a different new one), the node ends up listed exactly once under the new parent and no longer under the old one. When the new parent lies outside the node's subtree and the node is listed once under its old parent (or has none), every parentless root's tree stays finite and linked, so `Bookmarks.LinkedHasParents` and `Bookmarks.LinkedExportDecodes` apply to the edited tree |
| Bookmarks.BookmarkNode.MoveTo | pypdfbookmarks.py:44-52 | a root prints "Cannot move the root node" and returns normally. Otherwise it succeeds exactly when the node is among its parent's children and the index fits a 64-bit `Py_ssize_t`, and the new list is `MoveItem` of the old one (see `PyLists.MoveItemLands`). A node not in the list gives ValueError with the list unchanged. An index outside that range gives OverflowError after the pop, so the node's first occurrence is gone from the list. Only entries already listed remain, so by `Bookmarks.LinkedKept` every linked tree stays linked |
| Bookmarks.BookmarkNode.Remove | pypdfbookmarks.py:55-60 | a root prints "Cannot remove the root node" and then fails with AttributeError. Otherwise it succeeds exactly when the node is in its parent's list, and the first occurrence is removed. Failure is ValueError with the list unchanged. Only entries already listed remain, so by `Bookmarks.LinkedKept` every linked tree stays linked |
| Bookmarks.BookmarkNode.ReprParses | pypdfbookmarks.py:123-128 | `__repr__` starts with the title, and parsing it gives back the title, the page number and the number of children |
| Bookmarks.BookmarkNode.PrintChildren | pypdfbookmarks.py:117-120 | the console gains exactly one line per child, in order (`ChildLines`) |
| Bookmarks.ChildLines | pypdfbookmarks.py:119-120 | the children listing has one line per child (`Bookmarks.ChildLinesAt` gives each line) |
| Bookmarks.ChildLine | pypdfbookmarks.py:120 | the line for child k is `[k] ` and its repr; `Bookmarks.ChildLinesParse` reads it back |
| Bookmarks.ChildLinesAt | pypdfbookmarks.py:119-120 | line k of the children listing is the line of child k, numbered k |
| Bookmarks.ChildLinesParse | pypdfbookmarks.py:119-120 | line k of the children listing parses back to depth 0, index k and the child's repr |
| Bookmarks.BookmarkNode.PrintTree | pypdfbookmarks.py:107-114 | with no node given, the console gains the listing of the node's subtrees. With a node, it gains that node's line (indented 3 spaces per level) and then its subtrees. Both are stated on the tree value, and `Trees.PrintTreeIsEnumeration` characterises them |
| Bookmarks.BookmarkNode.PrintLevel | pypdfbookmarks.py:113-114 | the loop over a node's children prints the listings of all its subtrees in order |
| Bookmarks.BookmarkNode.AddBookmark | pypdfbookmarks.py:98-103 | the writer's log grows by exactly `Emit` of the node's tree, with handles counted from the current log length |
| Bookmarks.BookmarkNode.AddKids | pypdfbookmarks.py:102-103 | the children loop appends the export of each child in order, each under the node's handle |
| Bookmarks.BookmarkNode.AddToPdf | pypdfbookmarks.py:96-104 | exporting a tree appends `Emit` of its value with no parent handle. By `Bookmarks.LinkedExportDecodes`, the log of a linked tree (after any edit that keeps it linked) decodes back to the tree |
| Bookmarks.BookmarkNode.LoadFromPdf | pypdfbookmarks.py:63-93 | the import succeeds exactly when `GenKids` over the outline and `PageIdMap` succeeds, and a failure carries the same exception. The created nodes are appended to the children, name this node as their parent, and every node below them names its parent (`Linked`). On success their trees are the generated subtrees. Into an empty node, the result is a finite linked tree whose value has exactly the generated subtrees |
| Bookmarks.GenerateTree | pypdfbookmarks.py:82-91 | one call appends new children to `node` (none when `node` is `None`) whose parent is `node`, and below each of them every node names its parent (`Linked`), nested lists included. It succeeds exactly when `GenKids` does, fails with its exception otherwise, and on success the new children's trees are `GenKids`'s value |
| Bookmarks.GenerateLoop | pypdfbookmarks.py:84-91 | the loop over the items stops at the end or at the first exception. The outcome is `GenKids` of the items it went through, and the appended children are built as the loop state says (`Importing`) |
| Bookmarks.GenerateStep | pypdfbookmarks.py:84-91 | one loop iteration extends the outcome from `items[..i]` to `items[..i+1]`, matching `GenKids` on the longer prefix, and keeps the new children's trees in step |
| Bookmarks.EntryStep | pypdfbookmarks.py:85-89 | an entry closes the previous current node's tree and starts a new one for the fresh node |
| Bookmarks.AppendEntry | pypdfbookmarks.py:86-89 | an entry creates a fresh childless node with the entry's title and page index + 1, appended under `node` |
| Bookmarks.FillLast | pypdfbookmarks.py:90-91 | a nested list fills the current node. Its subtree stays finite and linked, the new nodes naming their parents. On success its tree gains `GenKids(sub)` as extra subtrees; failure is the sub-call's exception |
| Bookmarks.WritePdf | pypdfbookmarks.py:133-140 | the new writer holds the reader's pages in order, and its outline is the export of the tree |
| Bookmarks.PdfWriter.AddBookmark | pypdfbookmarks.py:101 | the writer appends one outline entry and returns its position as the handle |
| Bookmarks.PdfWriter.AddPage | pypdfbookmarks.py:137-138 | the page is appended to the writer's pages |
| Bookmarks.Console.Print | pypdfbookmarks.py:112 | one printed line is appended to the console |
| Bookmarks.Snapshot | pypdfbookmarks.py:9-13 | a node's tree value keeps its title and page number, whether it has no parent, and one subtree per child |
| Bookmarks.KidSnapshot | pypdfbookmarks.py:102-103 | the tree of child i is subtree i of the node's tree |
| Bookmarks.Linked | pypdfbookmarks.py:30-33 | every child of every node below n names that node as its parent, the back-link `add_child` sets (a predicate; `Bookmarks.LinkedKept` and the import contracts state it) |
| Bookmarks.KidsOf | pypdfbookmarks.py:9-15 | the recorded children lists of a set of nodes: one entry per node, holding its children |
| Bookmarks.ParentsOf | pypdfbookmarks.py:9-15 | the recorded parents of a set of nodes: an entry exactly for the nodes that have a parent, holding it |
| Bookmarks.LinkedFinite | pypdfbookmarks.py:30-33 | a linked tree is finite: no path below its root revisits a node |
| Bookmarks.LinkedAsMaps | pypdfbookmarks.py:30-33 | a node is linked within a set exactly when it is a well-formed tree (`Links.TreeIn`) in the recorded links |
| Bookmarks.LinkedHasParents | pypdfbookmarks.py:30-33 | every node strictly below the root of a linked tree has a parent in its tree value |
| Bookmarks.LinkedExportDecodes | pypdfbookmarks.py:96-104 | for a linked parentless root, the export log decodes back to the shape of its subtrees |
| Links.TreeKept | pypdfbookmarks.py:41 | dropping entries from children lists, and changing only the top node's parent, keeps a tree well formed |
| Links.MoveRelists | pypdfbookmarks.py:36-41 | the append to the new parent's list followed by the removal from the old parent's list lists nothing new except the node under its new parent |
| Links.Reattach | pypdfbookmarks.py:36-41 | such a re-listing, with the node's parent set to the new parent, keeps well formed every tree that does not contain the node's subtree |
| Links.Reparent | pypdfbookmarks.py:36-41 | re-parenting a node under a parent outside its subtree keeps every parentless root's tree well formed |
| Bookmarks.LinkedKept | pypdfbookmarks.py:44-60 | an edit that keeps every node's fields except one node's children, and leaves in that list only entries it already held (as `move_to` and `remove` do), keeps every linked tree linked |
| PyLists.IndexOf | pypdfbookmarks.py:52 | `list.index` gives the first position holding the item |
| PyLists.RemoveAt | pypdfbookmarks.py:52 | `list.pop(i)` keeps the items before i and shifts the later ones down by one |
| PyLists.RemoveFirst | pypdfbookmarks.py:41 | `list.remove(x)` of an item in the list leaves one element fewer and exactly one copy of x fewer (`PyLists.RemoveFirstSpec` pins the order) |
| PyLists.InsertPosition | pypdfbookmarks.py:50-52 | `list.insert` clamps its index: within `0..n` it is used as is, a negative index counts from the end, and out-of-range indices go to the start or the end |
| PyLists.Insert | pypdfbookmarks.py:50-52 | `list.insert(i, x)` puts x at the clamped position, and removing it there gives back the list: one more element, one more copy of x |
| PyLists.RemoveFirstSpec | pypdfbookmarks.py:41 | `list.remove` deletes exactly the first occurrence: one fewer copy, the rest in order |
| PyLists.RemoveFirstAfterAppend | pypdfbookmarks.py:39-41 | re-parenting under the same parent, an append then a remove, moves the node to the end of the list |
| PyLists.RemoveOnlyOccurrence | pypdfbookmarks.py:60 | removing a node listed once leaves it absent from the list |
| PyLists.MoveItem | pypdfbookmarks.py:50-52 | the pop-then-insert of `move_to` keeps the length and the multiset of the children (`PyLists.MoveItemLands` gives the order) |
| PyLists.MoveItemLands | pypdfbookmarks.py:50-52 | the node lands at the clamped index (exactly `new_index` when it is in range), and the other children keep their relative order |
| Formatting.NatToString | pypdfbookmarks.py:125-128 | the decimal text of a number is non-empty, all digits, without a leading zero |
| Formatting.IntToString | pypdfbookmarks.py:127 | the text of a page number is non-empty and contains no comma |
| Formatting.NatRoundTrip | pypdfbookmarks.py:125-128 | parsing the decimal text of n gives n |
| Formatting.IntRoundTrip | pypdfbookmarks.py:127 | parsing the text of any integer, negative ones included, gives it back |
| Formatting.PageText | pypdfbookmarks.py:125-128 | the text after ` -> p`: the page number, then `, c<count>` only when there are children; `Formatting.PageTextParses` reads it back |
| Formatting.Describe | pypdfbookmarks.py:123-128 | the repr text `<title> -> p<page>[, c<count>]`; `Formatting.DescribeParses` reads it back |
| Formatting.PageTextParses | pypdfbookmarks.py:125-128 | the text after the title, `p<page>` plus `, c<count>` only when there are children, parses back to page and child count |
| Formatting.DescribeParses | pypdfbookmarks.py:123-128 | the whole repr parses back to title, page number and child count |
| Trees.EmitIsPreorder | pypdfbookmarks.py:98-104 | the export log has one entry per node that has a parent, in pre-order, with that node's title and page number - 1 |
| Trees.EmitKidsIsPreorder | pypdfbookmarks.py:102-103 | the same holds for a list of sibling subtrees |
| Trees.EmitParents | pypdfbookmarks.py:100-103 | a subtree's first entry is its root, under the given parent handle. Every later entry names an earlier entry of the same subtree as its parent |
| Trees.Emit | pypdfbookmarks.py:98-104 | the outline entries `_add_bookmark` adds for a subtree: the node's own entry unless it is parentless, then its children's under the node's handle. `Trees.EmitIsPreorder`, `Trees.EmitParents` and `Trees.ExportDecodes` characterise it |
| Trees.EmitKids | pypdfbookmarks.py:102-103 | the entries of sibling subtrees in order, all under one parent handle; `Trees.EmitKidsIsPreorder` and `Trees.ScanKids` characterise it |
| Trees.ScanKids | pypdfbookmarks.py:102-103 | in the log, the entries whose parent is handle p are exactly the first entries of p's children, in order |
| Trees.DecodeEmit | pypdfbookmarks.py:98-103 | decoding the log at a node's entry gives back that subtree's shape: titles, page indices, nesting and order |
| Trees.ExportDecodes | pypdfbookmarks.py:96-104 | round trip: decoding the whole export log by parent handles gives back the shape of the root's subtrees |
| Trees.EnumerateFollowsNodes | pypdfbookmarks.py:107-114 | the printed listing visits the same nodes, in the same pre-order, as the export walk |
| Trees.PrintTreeIsEnumeration | pypdfbookmarks.py:107-114 | print_tree from the root prints one line per node except the root, in pre-order. Each line carries the node's depth and its index among its siblings |
| Trees.TreeLinesAreEnumeration | pypdfbookmarks.py:109-114 | a node's listing is its line followed by its subtrees' listings, following the enumeration |
| Trees.KidLinesAreEnumeration | pypdfbookmarks.py:113-114 | the listing of sibling subtrees follows the enumeration with indices 0, 1, ... |
| Trees.TreeLines | pypdfbookmarks.py:109-114 | the lines print_tree prints for a node it is given: the node's line, then its subtrees one level deeper; `Trees.TreeLinesAreEnumeration` characterises it |
| Trees.KidLines | pypdfbookmarks.py:113-114 | the lines the loop over the children prints, subtree after subtree; `Trees.KidLinesAreEnumeration` characterises it |
| Trees.Line | pypdfbookmarks.py:112 | one print_tree line: 3 spaces per level, the index in brackets, the repr; `Trees.LineParses` reads it back |
| Trees.EnumerationExample | pypdfbookmarks.py:107-114 | a concrete four-node tree is enumerated A, B, D, C with the expected depths and indices |
| Trees.Indexed | pypdfbookmarks.py:120 | a listing line opens with `[`, and the rest reads back as the index and the repr that follow it |
| Trees.Spaces | pypdfbookmarks.py:112 | indentation is exactly n spaces |
| Trees.LineParses | pypdfbookmarks.py:112 | every printed line parses back to its depth, its index and the node's repr |
| Trees.LineTextParses | pypdfbookmarks.py:112 | 3·depth spaces followed by an indexed text parse back to depth, index and text |
| Trees.ChildLineTextParses | pypdfbookmarks.py:120 | a print_children line parses back to depth 0, its index and the repr |
| PageTree.SetupPageIdToNum | pypdfbookmarks.py:65-80 | the page-id map built by the recursive walk equals `PageIdMap` of the document's page tree |
| PageTree.Walk | pypdfbookmarks.py:65-78 | one call advances the page counter by the leaf pages of its subtree. The map is updated, in depth-first order, with each descendant's id and the count of leaf pages before it |
| PageTree.PageIdMap | pypdfbookmarks.py:65-80 | the map `_setup_page_id_to_num` returns, as a function of the page tree; `PageTree.PageIdMapKeys`, `PageTree.PageIdMapValue` and `PageTree.LeafNumberUsed` characterise it |
| PageTree.Flatten | pypdfbookmarks.py:72-75 | the objects the walk reaches below a node, in its depth-first order (`PageTree.SubtreeFollows`) |
| PageTree.Fold | pypdfbookmarks.py:74 | the map after the walk's assignments in order, a later one for the same id overriding an earlier one (`PageTree.PageIdMapKeys`) |
| PageTree.PairsAt | pypdfbookmarks.py:73-74 | the j-th descendant in depth-first order is paired with its id and the number of leaf pages before it |
| PageTree.PageIdMapKeys | pypdfbookmarks.py:72-75 | the map's keys are exactly the ids of the objects below the root, at any depth (not the root itself) |
| PageTree.PageIdMapValue | pypdfbookmarks.py:72-77 | with distinct ids, each object maps to the number of leaf pages that precede it in depth-first order |
| PageTree.LeafPagesNumbered | pypdfbookmarks.py:72-77 | leaf pages get indices below the page count, strictly increasing in document order |
| PageTree.LeafNumberUsed | pypdfbookmarks.py:72-77 | every index below the page count is the index of some leaf page, so leaf pages are numbered 0..n-1 without gaps |
| PageTree.PagesKidMapsToFirstLeaf | pypdfbookmarks.py:72-75 | an intermediate `/Pages` node with pages below it maps to the index of its first leaf page |
| PageTree.SubtreeFollows | pypdfbookmarks.py:72-75 | in depth-first order, an object's descendants immediately follow it |
| OutlineImport.GenKidsSucceeds | pypdfbookmarks.py:82-91 | an import succeeds exactly when every nested list follows an entry at a level that has a node, and every entry's page id is in the map. Failures are AttributeError on `None` or a KeyError of a missing id |
| OutlineImport.GenKids | pypdfbookmarks.py:82-91 | the subtrees `_generate_tree` creates for a list of items, or the exception it raises; `OutlineImport.GenKidsSucceeds`, `OutlineImport.GenKidsLabels` and `OutlineImport.ImportThenExport` characterise it |
| OutlineImport.PlaceableSnoc | pypdfbookmarks.py:84-91 | an item list can be placed exactly when its prefix can and the last item is an entry under an existing node, or a nested list placeable under the latest entry |
| OutlineImport.KidsNonEmpty | pypdfbookmarks.py:83-91 | a successful call creates children exactly when it has a node and the list holds an entry |
| OutlineImport.GenKidsPrefixFails | pypdfbookmarks.py:84-91 | once an item raises, the whole call raises the same exception |
| OutlineImport.GenKidsEntryStep | pypdfbookmarks.py:85-89 | an entry raises KeyError for an unknown page id, or AttributeError when the node is `None`. Otherwise it adds a node with page index + 1 |
| OutlineImport.GenKidsNestedStep | pypdfbookmarks.py:90-91 | a nested list is imported under the latest entry's node and its exception propagates. Before any entry it is imported under `None` and adds nothing |
| OutlineImport.PlaceableWithoutNode | pypdfbookmarks.py:82-91 | an import under `None` succeeds only when no entry appears at any depth |
| OutlineImport.GraftLabels | pypdfbookmarks.py:90-91 | grafting a nested import onto the last node puts its nodes right after that node's earlier descendants in pre-order |
| OutlineImport.GraftParents | pypdfbookmarks.py:90-91 | grafted nodes all have parents |
| OutlineImport.GenKidsLabels | pypdfbookmarks.py:82-91 | a successful import creates, in pre-order, exactly one node per outline entry in document order. Each node has the entry's title and mapped page + 1 and has a parent |
| OutlineImport.RootEmitsKids | pypdfbookmarks.py:98-104 | exporting a root whose descendants all have parents lists exactly those descendants |
| OutlineImport.ImportThenExport | pypdfbookmarks.py:82-104 | importing an outline and exporting it again gives one entry per outline entry, in order, with the same title and the mapped page index. The log decodes to the imported shape |

## Left out

- The PyPDF2 reader and writer are replaced by the data they hand over.
  - The reader becomes `PdfReader`: its pages, its page tree and its outline. The lookup of `/Root` and `/Pages` through the trailer (line 70) is given as the `pageTree` field.
  - Indirect objects appear by their `idnum`.
  - The writer becomes `PdfWriter`, which records pages and outline entries. The handle `addBookmark` returns is the entry's position in that record.
- write_pdf's output file (lines 142-143): files are not modelled.
- These parts of the script are not part of this model: the module-level state, `load_pdf`/`save_pdf`, the interactive shell, help, license, usage and `main`.
- `parse_csv` and the `tabs` field are not part of this model. They belong to the CSV import, which is outside the core.
- Printing: `print` is modelled as appending a line to a `Console`.
- `__init__`'s default `title=None` is not modelled: titles are strings. `_generate_tree` creates a node and then sets its title and page, and the model passes the title to the constructor.
- `add_child` with a non-node argument is not representable, because its parameter is a non-null `BookmarkNode`.
- Behaviour of the code worth noting:
  - `move_to` rejects no integer index inside the 64-bit `Py_ssize_t` range, because `list.insert` clamps it. Outside that range the node is popped first and `insert` then raises OverflowError, which the model represents.
  - `remove` on the root prints its message and then raises AttributeError, since the code does not return after printing.
  - `remove` leaves the removed node's `parent` as it was.
  - The code does not trim titles and does not re-encode text.
- The walks take a ghost set `nodes`. Through `Finite`, it witnesses that the reachable nodes are finite and acyclic. On a cycle the Python recursion of print_tree and add_to_pdf raises RecursionError; the model requires a finite tree and does not represent that exception.
- Python's recursion limit is not modelled. A tree, an outline or a page tree deeper than the limit raises RecursionError in the source, while the model has no depth bound.
- A page-tree object without `/Type`, or a `/Pages` object without `/Kids`, raises KeyError at lines 71 and 73. `PageNode` gives every object a type and every `/Pages` object its kids, so that case is not represented.
- Bookmarks.BookmarkNode.MoveTo: `newIndex` is an `int`, and `Py_ssize_t` is taken to be 64 bits wide (a 32-bit build has a narrower range). With a non-integer index the source pops the node, since the argument of `insert` is evaluated first, and then raises TypeError, leaving the node detached (lines 50-52). The model does not represent that case.
- `SetParent` does not reject a cycle (re-parenting a node under its own descendant), because the code does not either. Its tree-shape guarantee therefore requires the new parent to lie outside the node's subtree; a node listed twice under its old parent also keeps a stale entry there, which the guarantee excludes.
- Bookmarks.BookmarkNode.PrintTree: `num` and `depth` are natural numbers, and so is `depth` in `PrintLevel`. Python accepts any integer: a negative `depth` prints no indentation, since `"   " * depth` is then empty, and a negative `num` prints its minus sign inside the brackets. The code itself only passes 0 and larger values; such outside calls are not represented.
- Bookmarks.GenerateTree: on failure the contract states only that new children were appended, with their parent set and every node below them linked to its parent. It does not state the shape of the partial trees built before the exception.
- Bookmarks.BookmarkNode.LoadFromPdf: the value of the whole tree after loading is stated only for a node with no children beforehand. In other cases the contract states the trees of the new children, not of the node itself.
- Bookmarks.BookmarkNode.PrintTree: its output, like that of `PrintChildren` and `PrintLevel`, is stated in terms of the tree as it was before the call. Printing changes no node.

=== FILE: bookmarks.dfy ===
/**
 * BookmarkNode as a class over the heap: the node's parent back-reference
 * and ordered children list are fields its methods update in place. The
 * recursive walks (add_to_pdf, print_tree) and the outline import are
 * proved against the value view of module Trees through `Snapshot`, the
 * tree a node reaches when its reachable nodes form a finite, acyclic
 * structure.
 */
module Bookmarks {
  import opened Wrappers
  import opened PyLists
  import opened Formatting
  import opened Trees
  import opened PageTree
  import opened OutlineImport
  import opened Links

  /** Standard output: the lines print() has written, in order. */
  class Console {
    var lines: seq<string>

    constructor ()
      ensures lines == []
    {
      lines := [];
    }

    method Print(line: string)
      modifies this`lines
      ensures lines == old(lines) + [line]
    {
      lines := lines + [line];
    }
  }

  /** A PdfFileWriter as far as this program uses it: the pages added to it
      and the log of addBookmark calls. The handle addBookmark returns is the
      position of its entry in the log. */
  class PdfWriter {
    var pages: seq<int>
    var entries: seq<OutlineEntry>

    constructor ()
      ensures pages == [] && entries == []
    {
      pages := [];
      entries := [];
    }

    method AddPage(page: int)
      modifies this`pages
      ensures pages == old(pages) + [page]
    {
      pages := pages + [page];
    }

    method AddBookmark(title: string, pageIndex: int, parent: Option<nat>) returns (handle: nat)
      modifies this`entries
      ensures handle == |old(entries)|
      ensures entries == old(entries) + [OutlineEntry(title, pageIndex, parent)]
    {
      handle := |entries|;
      entries := entries + [OutlineEntry(title, pageIndex, parent)];
    }
  }

  /** A PdfFileReader as far as load_from_pdf and write_pdf use it: its
      pages, the /Pages tree under the document catalog, and its outline. */
  datatype PdfReader = PdfReader(pages: seq<int>, pageTree: PageNode, outlines: seq<OutlineItem>)

  class BookmarkNode {
    var parent: BookmarkNode?
    var children: seq<BookmarkNode>
    var title: string
    var pageNumber: int

    /** BookmarkNode(title): no parent, no children, page_number 0. */
    constructor (title: string)
      ensures parent == null && children == []
      ensures this.title == title && pageNumber == 0
    {
      parent := null;
      children := [];
      this.title := title;
      pageNumber := 0;
    }

    /** __repr__: "<title> -> p<page_number>", then ", c<count>" when the
        node has children. */
    function Repr(): string
      reads this
    {
      Describe(title, pageNumber, |children|)
    }

    /** __repr__ loses nothing: it starts with the title, and the page
        number and child count can be read back from it. */
    lemma {:induction false} ReprParses()
      ensures |Repr()| > |title| && Repr()[..|title|] == title
      ensures ParseDescription(Repr(), |title|) == Some((title, pageNumber, |children|))
    {
      DescribeParses(title, pageNumber, |children|);
    }

    /** add_child: `child` goes at the end of the children and gets this
        node as its parent; no other node and no other field changes. */
    method AddChild(child: BookmarkNode)
      modifies this`children, child`parent
      ensures children == old(children) + [child]
      ensures child.parent == this
      // In the recorded links of any set of nodes, only this node's list
      // and the child's parent change.
      ensures forall nodes: set<BookmarkNode> :: old(allocated(nodes)) ==>
        KidsOf(nodes) == (if this in nodes then old(KidsOf(nodes))[this := children] else old(KidsOf(nodes))) &&
        ParentsOf(nodes) == if child in nodes then old(ParentsOf(nodes))[child := this] else old(ParentsOf(nodes))
      // Attaching a parentless node whose tree is well formed and does not
      // hold this node keeps the tree of every parentless root well formed.
      ensures forall root: BookmarkNode, nodes: set<BookmarkNode> ::
        old(allocated(root)) && old(allocated(nodes)) &&
        old(child.parent) == null && old(root.parent) == null &&
        old(Linked(root, nodes)) && old(Linked(child, nodes - {this})) ==>
        Finite(root, nodes) && Linked(root, nodes)
    {
      forall root: BookmarkNode, nodes: set<BookmarkNode> | Linked(root, nodes)
        ensures TreeIn(root, nodes, KidsOf(nodes), ParentsOf(nodes))
      {
        LinkedAsMaps(root, nodes, nodes);
      }
      forall nodes: set<BookmarkNode> | Linked(child, nodes - {this})
        ensures TreeIn(child, nodes - {this}, KidsOf(nodes), ParentsOf(nodes))
      {
        LinkedAsMaps(child, nodes - {this}, nodes);
      }
      children := children + [child];
      child.parent := this;
      forall nodes: set<BookmarkNode> | old(allocated(nodes))
        ensures KidsOf(nodes) == if this in nodes then old(KidsOf(nodes))[this := children] else old(KidsOf(nodes))
        ensures ParentsOf(nodes) == if child in nodes then old(ParentsOf(nodes))[child := this] else old(ParentsOf(nodes))
      {
        KidsUpdated(nodes, old(KidsOf(nodes)), this);
        ParentsUpdated(nodes, old(ParentsOf(nodes)), child);
      }
      forall root: BookmarkNode, nodes: set<BookmarkNode> |
        old(allocated(root)) && old(allocated(nodes)) &&
        old(child.parent) == null && old(root.parent) == null &&
        old(Linked(root, nodes)) && old(Linked(child, nodes - {this}))
        ensures Finite(root, nodes) && Linked(root, nodes)
      {
        assert ParentsOf(nodes) == old(ParentsOf(nodes))[child := this];
        Reparent(root, nodes, old(KidsOf(nodes)), old(ParentsOf(nodes)), KidsOf(nodes), ParentsOf(nodes), child, this);
        LinkedAsMaps(root, nodes, nodes);
        LinkedFinite(root, nodes);
      }
    }

    /** set_parent: attach to `newParent` (AttributeError when it is None,
        before anything changes), then remove the first occurrence of this
        node from the old parent's children (ValueError when it is not
        there, after the attachment). When the old and the new parent are the
        same node, this moves the node to the end of the list. */
    method SetParent(newParent: BookmarkNode?) returns (r: Outcome<PyError>)
      modifies this`parent, ({newParent, parent} - {null})`children
      ensures newParent == null ==> r == Fail(NoneHasNoAttribute) && parent == old(parent)
      ensures newParent == null && old(parent) != null ==> old(parent).children == old(parent.children)
      ensures newParent != null ==> parent == newParent
      ensures newParent != null && old(parent) == null ==>
        r == Pass && newParent.children == old(newParent.children) + [this]
      ensures newParent != null && old(parent) == newParent ==>
        r == Pass && newParent.children == RemoveFirst(old(newParent.children) + [this], this)
      ensures newParent != null && old(parent) != null && old(parent) != newParent ==>
        newParent.children == old(newParent.children) + [this] &&
        (r == Pass <==> this in old(parent.children)) &&
        (r != Pass ==> r == Fail(NotInList) && old(parent).children == old(parent.children)) &&
        (r == Pass ==> old(parent).children == RemoveFirst(old(parent.children), this))
      // In a well-formed tree the node ends up listed exactly once under its
      // new parent and no longer under its old one.
      ensures newParent != null && old(parent) != newParent && this !in old(newParent.children) ==>
        Count(newParent.children, this) == 1
      ensures newParent != null && old(parent) == newParent && Count(old(newParent.children), this) == 1 ==>
        Count(newParent.children, this) == 1
      ensures (newParent != null && old(parent) != null && old(parent) != newParent &&
               Count(old(parent.children), this) == 1) ==> this !in old(parent).children
      // Moving a node listed once under its old parent below a new parent
      // outside its subtree keeps the tree of every parentless root well
      // formed.
      ensures forall root: BookmarkNode, nodes: set<BookmarkNode> ::
        old(allocated(root)) && old(allocated(nodes)) && newParent != null &&
        (old(parent) != null ==> Count(old(parent.children), this) == 1) &&
        old(root.parent) == null && old(Linked(root, nodes)) && old(Linked(this, nodes - {newParent})) ==>
        Finite(root, nodes) && Linked(root, nodes)
    {
      var oldParent := parent;
      if newParent == null {
        return Fail(NoneHasNoAttribute);
      }
      var np: BookmarkNode := newParent;
      // The tree-shape argument is needed only when the node leaves an old
      // parent that lists it once; when it had none, AddChild's own
      // contract covers it.
      ghost var moving := oldParent != null && Count(oldParent.children, this) == 1;
      if moving {
        forall root: BookmarkNode, nodes: set<BookmarkNode> | Linked(root, nodes)
          ensures TreeIn(root, nodes, KidsOf(nodes), ParentsOf(nodes))
        {
          LinkedAsMaps(root, nodes, nodes);
        }
        forall nodes: set<BookmarkNode> | Linked(this, nodes - {np})
          ensures TreeIn(this, nodes - {np}, KidsOf(nodes), ParentsOf(nodes))
        {
          LinkedAsMaps(this, nodes - {np}, nodes);
        }
      }
      newParent.AddChild(this);
      label Added:
      r := Pass;
      if oldParent != null {
        if this in oldParent.children {
          if Count(oldParent.children, this) == 1 {
            RemoveOnlyOccurrence(oldParent.children, this);
          }
          ghost var before := oldParent.children;
          oldParent.RemoveChild(this);
          MultisetMembers(oldParent.children, before);
          if moving {
            // Only the lists of np and of the old parent changed: np gained
            // this node and the old parent lost it.
            var op: BookmarkNode := oldParent;
            assert op != np ==> before == old(op.children) && this !in op.children;
            forall root: BookmarkNode, nodes: set<BookmarkNode> |
              old(allocated(root)) && old(allocated(nodes)) &&
              old(root.parent) == null && old(Linked(root, nodes)) && old(Linked(this, nodes - {newParent}))
              ensures Finite(root, nodes) && Linked(root, nodes)
            {
              MoveRelists(old(KidsOf(nodes)), KidsOf(nodes), old(ParentsOf(nodes)), nodes,
                          this, np, old@Added(np.children), op, before, op.children);
              Reparent(root, nodes, old(KidsOf(nodes)), old(ParentsOf(nodes)), KidsOf(nodes), ParentsOf(nodes), this, np);
              LinkedAsMaps(root, nodes, nodes);
              LinkedFinite(root, nodes);
            }
          }
        } else {
          r := Fail(NotInList);
        }
      }
    }

    /** list.remove on this node's children list: drop the first
        occurrence of `child`, as set_parent does to the old parent. */
    method RemoveChild(child: BookmarkNode)
      requires child in children
      modifies this`children
      ensures children == RemoveFirst(old(children), child)
      // In the recorded links of any set of nodes, only this node's list
      // changes.
      ensures forall nodes: set<BookmarkNode> :: old(allocated(nodes)) ==>
        KidsOf(nodes) == (if this in nodes then old(KidsOf(nodes))[this := children] else old(KidsOf(nodes))) &&
        ParentsOf(nodes) == old(ParentsOf(nodes))
    {
      children := RemoveFirst(children, child);
      forall nodes: set<BookmarkNode> | old(allocated(nodes))
        ensures KidsOf(nodes) == if this in nodes then old(KidsOf(nodes))[this := children] else old(KidsOf(nodes))
        ensures ParentsOf(nodes) == old(ParentsOf(nodes))
      {
        KidsUpdated(nodes, old(KidsOf(nodes)), this);
        ParentsKept(nodes, old(ParentsOf(nodes)));
      }
    }

    /** move_to: on the root, print a message and change nothing; otherwise
        take this node out of its first position among its siblings and
        insert it at `newIndex` with list.insert semantics (ValueError when
        the parent does not list it). The pop runs before insert converts
        the index, so an index outside the ssize_t range leaves the node
        popped and raises OverflowError. */
    method MoveTo(newIndex: int, console: Console) returns (r: Outcome<PyError>)
      modifies ({parent} - {null})`children, console`lines
      ensures old(parent) == null ==>
        r == Pass && console.lines == old(console.lines) + ["Cannot move the root node"]
      ensures old(parent) != null ==> console.lines == old(console.lines)
      ensures old(parent) != null ==> (r == Pass <==> this in old(parent.children) && IsSsize(newIndex))
      ensures old(parent) != null && r == Pass ==>
        parent.children == MoveItem(old(parent.children), this, newIndex)
      ensures old(parent) != null && this !in old(parent.children) ==>
        r == Fail(NotInList) && parent.children == old(parent.children)
      ensures old(parent) != null && this in old(parent.children) && !IsSsize(newIndex) ==>
        r == Fail(IndexOverflow) && parent.children == RemoveFirst(old(parent.children), this)
      // Only entries already listed remain, the premise of LinkedKept.
      ensures old(parent) != null ==> forall c :: c in parent.children ==> c in old(parent.children)
    {
      if parent == null {
        console.Print("Cannot move the root node");
        return Pass;
      }
      if this !in parent.children {
        return Fail(NotInList);
      }
      if !IsSsize(newIndex) {
        parent.children := RemoveFirst(parent.children, this);
        r := Fail(IndexOverflow);
      } else {
        parent.children := MoveItem(parent.children, this, newIndex);
        r := Pass;
      }
      MultisetMembers(parent.children, old(parent.children));
    }

    /** remove: on the root, print a message and then fail dereferencing
        the missing parent; otherwise delete the first occurrence of this
        node from the parent's children (ValueError when it is not there).
        The node keeps its own children and its parent field. */
    method Remove(console: Console) returns (r: Outcome<PyError>)
      modifies ({parent} - {null})`children, console`lines
      ensures old(parent) == null ==>
        r == Fail(NoneHasNoAttribute) && console.lines == old(console.lines) + ["Cannot remove the root node"]
      ensures old(parent) != null ==> console.lines == old(console.lines)
      ensures old(parent) != null ==> (r == Pass <==> this in old(parent.children))
      ensures old(parent) != null && r == Pass ==>
        parent.children == RemoveFirst(old(parent.children), this)
      ensures old(parent) != null && r != Pass ==>
        r == Fail(NotInList) && parent.children == old(parent.children)
      // Only entries already listed remain, the premise of LinkedKept.
      ensures old(parent) != null ==> forall c :: c in parent.children ==> c in old(parent.children)
    {
      if parent == null {
        console.Print("Cannot remove the root node");
        return Fail(NoneHasNoAttribute);
      }
      if this !in parent.children {
        return Fail(NotInList);
      }
      parent.children := RemoveFirst(parent.children, this);
      r := Pass;
      MultisetMembers(parent.children, old(parent.children));
    }

    /** print_children: one line per child, "[<index>] <repr>". */
    method PrintChildren(console: Console)
      modifies console`lines
      ensures console.lines == old(console.lines + ChildLines(children))
    {
      ghost var listing := ChildLines(children);
      forall k | 0 <= k < |children| ensures Listed(listing, children, k) {
        ChildLinesAt(children, k);
      }
      var i := 0;
      while i < |children|
        invariant 0 <= i <= |children|
        invariant console.lines == old(console.lines) + listing[..i]
      {
        assert Listed(listing, children, i);
        console.Print(ChildLine(i, children[i]));
        PrefixSnoc(listing, i);
        i := i + 1;
      }
      assert listing[..i] == listing;
    }

    /** _add_bookmark(node, writer, handle) with this node as `node`: one
        addBookmark for the node when it has a parent, then the children in
        list order under the new handle (under None for a parentless node). */
    method AddBookmark(writer: PdfWriter, handle: Option<nat>, ghost nodes: set<BookmarkNode>)
      requires Finite(this, nodes)
      modifies writer`entries
      decreases nodes, 1
      ensures writer.entries == old(writer.entries) + Emit(Snapshot(this, nodes), |old(writer.entries)|, handle)
    {
      var pdfNode: Option<nat> := None;
      if parent != null {
        var h := writer.AddBookmark(title, pageNumber - 1, handle);
        pdfNode := Some(h);
      }
      AddKids(writer, pdfNode, nodes);
    }

    /** The loop of _add_bookmark over the children, in list order, each
        exported under pdfNode. */
    method AddKids(writer: PdfWriter, pdfNode: Option<nat>, ghost nodes: set<BookmarkNode>)
      requires Finite(this, nodes)
      modifies writer`entries
      decreases nodes, 0
      ensures writer.entries == old(writer.entries) + EmitKids(Snapshot(this, nodes).kids, |old(writer.entries)|, pdfNode)
    {
      ghost var head := writer.entries;
      ghost var ts := Snapshot(this, nodes).kids;
      for i := 0 to |children|
        invariant Finite(this, nodes) && Snapshot(this, nodes).kids == ts
        invariant writer.entries == head + EmitKids(ts[..i], |head|, pdfNode)
      {
        ghost var before := writer.entries;
        KidSnapshot(this, nodes, i);
        children[i].AddBookmark(writer, pdfNode, nodes - {this});
        EmitKidsSnoc(head, before, writer.entries, ts, i, pdfNode);
      }
      assert ts[..|children|] == ts;
    }

    /** add_to_pdf: the export walk from this node, with no parent handle. */
    method AddToPdf(writer: PdfWriter, ghost nodes: set<BookmarkNode>)
      requires Finite(this, nodes)
      modifies writer`entries
      ensures writer.entries == old(writer.entries) + Emit(Snapshot(this, nodes), |old(writer.entries)|, None)
    {
      AddBookmark(writer, None, nodes);
    }

    /** load_from_pdf: build the page map from the reader's /Pages tree,
        then append the reader's outline below this node. On success, a node
        that had no children now has exactly the tree the outline
        describes. */
    method LoadFromPdf(reader: PdfReader) returns (r: Outcome<PyError>, ghost kids: seq<BookmarkNode>, ghost made: set<BookmarkNode>)
      modifies this`children
      ensures fresh(made) && children == old(children) + kids
      ensures forall c :: c in kids ==> c.parent == this && Finite(c, made) && Linked(c, made)
      ensures var res := GenKids(reader.outlines, PageIdMap(reader.pageTree), true);
        (r.Pass? <==> res.Success?) && (r.Fail? ==> r.error == res.error)
      ensures r.Pass? ==> SnapshotList(kids, made) == GenKids(reader.outlines, PageIdMap(reader.pageTree), true).value
      ensures var res := GenKids(reader.outlines, PageIdMap(reader.pageTree), true);
        r.Pass? && old(children) == [] ==>
          Finite(this, made + {this}) && Linked(this, made + {this}) &&
          Snapshot(this, made + {this}) == Tree(title, pageNumber, parent == null, res.value)
    {
      var pageIdToNum := SetupPageIdToNum(reader.pageTree);
      r, kids, made := GenerateTree(this, reader.outlines, pageIdToNum);
      if r.Pass? && old(children) == [] {
        assert children == kids;
        assert (made + {this}) - {this} == made;
      }
    }

    /** print_tree(num, node, depth): with no node, the listing of this
        node's children at depth + 1 (the node itself is not printed); with a
        node, its line "<3*depth spaces>[<num>] <repr>" and then its
        children's listings at depth + 1. */
    method PrintTree(num: nat, node: BookmarkNode?, depth: nat, console: Console, ghost nodes: set<BookmarkNode>)
      requires Finite(if node == null then this else node, nodes)
      modifies console`lines
      decreases nodes, 1
      ensures node == null ==>
        console.lines == old(console.lines + KidLines(Snapshot(this, nodes).kids, depth + 1))
      ensures node != null ==>
        console.lines == old(console.lines + TreeLines(Snapshot(node, nodes), num, depth))
    {
      if node == null {
        PrintLevel(this, depth + 1, console, nodes);
      } else {
        ghost var t := Snapshot(node, nodes);
        ghost var head := console.lines;
        ghost var line := Line(Visit(t, depth, num));
        ghost var rest := KidLines(t.kids, depth + 1);
        assert TreeLines(t, num, depth) == [line] + rest;
        LineOfNode(node, nodes, num, depth);
        console.Print(Spaces(3 * depth) + ChildLine(num, node));
        assert console.lines == head + [line];
        assert Finite(node, nodes) && Snapshot(node, nodes) == t;
        PrintLevel(node, depth + 1, console, nodes);
        assert console.lines == head + [line] + rest;
        AppendAssoc(head, [line], rest);
      }
    }

    /** The loop of print_tree over the children of n, which are listed at
        the given depth. */
    method PrintLevel(n: BookmarkNode, depth: nat, console: Console, ghost nodes: set<BookmarkNode>)
      requires Finite(n, nodes)
      modifies console`lines
      decreases nodes, 0
      ensures console.lines == old(console.lines + KidLines(Snapshot(n, nodes).kids, depth))
    {
      ghost var head := console.lines;
      ghost var ts := Snapshot(n, nodes).kids;
      for i := 0 to |n.children|
        invariant Finite(n, nodes) && Snapshot(n, nodes).kids == ts
        invariant console.lines == head + KidLines(ts[..i], depth)
      {
        ghost var before := console.lines;
        KidSnapshot(n, nodes, i);
        PrintTree(i, n.children[i], depth, console, nodes - {n});
        KidLinesSnoc(head, before, console.lines, ts, i, depth);
      }
      assert ts[..|n.children|] == ts;
    }
  }

  /** write_pdf: a new writer that holds the reader's pages in order and
      then the bookmarks of the tree, as add_to_pdf writes them. Writing the
      writer out to the output file is not part of this model. */
  method WritePdf(tree: BookmarkNode, reader: PdfReader, ghost nodes: set<BookmarkNode>) returns (output: PdfWriter)
    requires Finite(tree, nodes)
    ensures fresh(output)
    ensures output.pages == reader.pages
    ensures output.entries == Emit(Snapshot(tree, nodes), 0, None)
  {
    output := new PdfWriter();
    for i := 0 to |reader.pages|
      invariant output.pages == reader.pages[..i] && output.entries == []
    {
      output.AddPage(reader.pages[i]);
    }
    tree.AddToPdf(output, nodes);
  }

  /** _generate_tree(node, items): each entry becomes a new node appended
      to `node` (KeyError for a page the map does not know, AttributeError
      when node is None); each list fills the node created last at this
      level, or None when there is none yet. The children appended, `kids`,
      are fresh and form exactly the trees GenKids describes; on failure the
      ones appended before the exception stay. */
  method GenerateTree(node: BookmarkNode?, items: seq<OutlineItem>, m: map<int, nat>)
      returns (r: Outcome<PyError>, ghost kids: seq<BookmarkNode>, ghost made: set<BookmarkNode>)
    modifies ({node} - {null})`children
    decreases items, 2
    ensures fresh(made)
    ensures node == null ==> kids == []
    ensures node != null ==> node.children == old(node.children) + kids
    ensures forall c :: c in kids ==> c.parent == node && Finite(c, made) && Linked(c, made)
    ensures r.Pass? <==> GenKids(items, m, node != null).Success?
    ensures r.Fail? ==> r.error == GenKids(items, m, node != null).error
    ensures r.Pass? ==> SnapshotList(kids, made) == GenKids(items, m, node != null).value
  {
    var current, i;
    ghost var front, done, cur, ts;
    r, current, i, kids, front, done, cur, ts := GenerateLoop(node, items, m);
    assert node == null ==> kids == [];
    assert forall c :: c in kids ==> c.parent == node;
    made := Assemble(kids, front, current, done, cur, ts);
    if r.Fail? {
      GenKidsPrefixFails(items, i, m, node != null);
    } else {
      assert items[..i] == items;
    }
  }

  /** The loop of _generate_tree over the items, up to the end or to the
      first exception. */
  method GenerateLoop(node: BookmarkNode?, items: seq<OutlineItem>, m: map<int, nat>)
      returns (r: Outcome<PyError>, current: BookmarkNode?, i: nat, ghost kids: seq<BookmarkNode>,
               ghost front: seq<BookmarkNode>, ghost done: set<BookmarkNode>, ghost cur: set<BookmarkNode>,
               ghost ts: seq<Tree>)
    modifies ({node} - {null})`children
    decreases items, 1
    ensures i <= |items| && (r.Pass? ==> i == |items|)
    ensures r.Pass? ==> GenKids(items[..i], m, node != null) == Success(ts)
    ensures r.Fail? ==> GenKids(items[..i], m, node != null) == Failure(r.error)
    ensures fresh(done + cur)
    ensures Importing(node, old(if node == null then [] else node.children), kids, front, current, done, cur, ts)
  {
    kids := [];
    front, done, cur, ts := [], {}, {}, [];
    current := null;
    ghost var base := if node == null then [] else node.children;
    r := Pass;
    i := 0;
    while i < |items| && r.Pass?
      invariant i <= |items|
      invariant r.Pass? ==> GenKids(items[..i], m, node != null) == Success(ts)
      invariant r.Fail? ==> GenKids(items[..i], m, node != null) == Failure(r.error)
      invariant base == old(if node == null then [] else node.children)
      invariant fresh(done + cur)
      invariant Importing(node, base, kids, front, current, done, cur, ts)
    {
      ghost var added;
      r, current, kids, front, done, cur, ts, added := GenerateStep(node, items, i, m, current, base, kids, front, done, cur, ts);
      i := i + 1;
    }
  }

  /** One item of the loop of _generate_tree. An entry appends a new node
      below `node`, which becomes the current one, and closes the previous
      current node off into the finished siblings `front` (nodes `done`); a
      list fills the current node (nodes `cur`), or, with no current node,
      is built below None. The children appended so far are `kids`, after
      the ones `node` had before (`base`). On success the trees of the
      children are the ones GenKids gives for the items up to and including
      this one. */
  method GenerateStep(node: BookmarkNode?, items: seq<OutlineItem>, i: nat, m: map<int, nat>, current: BookmarkNode?,
                      ghost base: seq<BookmarkNode>, ghost kids: seq<BookmarkNode>, ghost front: seq<BookmarkNode>,
                      ghost done: set<BookmarkNode>, ghost cur: set<BookmarkNode>, ghost ts: seq<Tree>)
      returns (r: Outcome<PyError>, current': BookmarkNode?, ghost kids': seq<BookmarkNode>,
               ghost front': seq<BookmarkNode>, ghost done': set<BookmarkNode>, ghost cur': set<BookmarkNode>,
               ghost ts': seq<Tree>, ghost added: set<BookmarkNode>)
    requires i < |items| && GenKids(items[..i], m, node != null) == Success(ts)
    requires node != null ==> node !in done + cur
    requires Importing(node, base, kids, front, current, done, cur, ts)
    modifies ({node} - {null})`children, ({current} - {null})`children
    decreases items, 0
    ensures r.Pass? ==> GenKids(items[..i + 1], m, node != null) == Success(ts')
    ensures r.Fail? ==> GenKids(items[..i + 1], m, node != null) == Failure(r.error)
    ensures fresh(added) && done' + cur' <= done + cur + added
    ensures Importing(node, base, kids', front', current', done', cur', ts')
  {
    match items[i]
    case Entry(title, id) =>
      GenKidsEntryStep(items, i, m, node != null);
      if id !in m || node == null {
        return Fail(if id !in m then KeyError(id) else NoneHasNoAttribute), current, kids, front, done, cur, ts, {};
      }
      var c;
      c, kids', done' := EntryStep(node, title, m[id], base, kids, front, current, done, cur, ts);
      front' := kids;
      r, current', cur', ts', added := Pass, c, {c}, ts + [NewNode(title, m[id])], {c};
    case Nested(sub) =>
      GenKidsNestedStep(items, i, m, node != null);
      front', done', current', kids' := front, done, current, kids;
      if current == null {
        ghost var kids2, made2;
        r, kids2, made2 := GenerateTree(null, sub, m);
        cur', ts', added := cur, ts, {};
      } else {
        ghost var last';
        r, cur', last' := FillLast(current, sub, m, cur, ts[|ts| - 1], front, done, ts[..|front|]);
        ts', added := ts[..|ts| - 1] + [last'], cur' - cur;
        assert ts'[..|front|] == ts[..|front|];
        assert r.Pass? ==> ts' == Graft(ts, GenKids(sub, m, true).value);
      }
  }

  /** One entry of _generate_tree at a node: the new child, and the
      children before it now closed off into the finished forest. */
  method EntryStep(node: BookmarkNode, title: string, pageIndex: nat, ghost base: seq<BookmarkNode>,
                   ghost kids: seq<BookmarkNode>, ghost front: seq<BookmarkNode>, ghost current: BookmarkNode?,
                   ghost done: set<BookmarkNode>, ghost cur: set<BookmarkNode>, ghost ts: seq<Tree>)
      returns (c: BookmarkNode, ghost kids': seq<BookmarkNode>, ghost done': set<BookmarkNode>)
    requires node.children == base + kids && forall x :: x in kids ==> x.parent == node
    requires Building(kids, front, current, done, cur, ts)
    requires node !in done + cur
    modifies node`children
    ensures fresh(c) && done' == done + cur
    ensures node.children == base + kids' && forall x :: x in kids' ==> x.parent == node
    ensures Building(kids', kids, c, done', {c}, ts + [NewNode(title, pageIndex)])
  {
    done' := Assemble(kids, front, current, done, cur, ts);
    c := AppendEntry(node, title, pageIndex);
    kids' := kids + [c];
    assert (ts + [NewNode(title, pageIndex)])[..|kids|] == ts;
  }

  method AppendEntry(node: BookmarkNode, title: string, pageIndex: nat) returns (c: BookmarkNode)
    modifies node`children
    ensures fresh(c)
    ensures node.children == old(node.children) + [c]
    ensures c.parent == node
    ensures Grown(c, {c}, NewNode(title, pageIndex))
  {
    c := new BookmarkNode(title);
    c.pageNumber := pageIndex + 1;
    node.AddChild(c);
    LeafGrown(c, title, pageIndex);
  }

  /** A new node with a parent and no children is a one-node tree. */
  lemma LeafGrown(c: BookmarkNode, title: string, pageIndex: nat)
    requires c.children == [] && c.parent != null
    requires c.title == title && c.pageNumber == pageIndex + 1
    ensures Grown(c, {c}, NewNode(title, pageIndex))
  {
    assert SnapshotList(c.children, {c} - {c}) == [];
  }

  /** The recursive call _generate_tree(current_node, item) on the node
      created last, whose tree so far is `last`: the trees of the new
      children are added below it. */
  method FillLast(n: BookmarkNode, sub: seq<OutlineItem>, m: map<int, nat>, ghost nodes: set<BookmarkNode>, ghost last: Tree,
                  ghost front: seq<BookmarkNode>, ghost done: set<BookmarkNode>, ghost fts: seq<Tree>)
      returns (r: Outcome<PyError>, ghost nodes': set<BookmarkNode>, ghost last': Tree)
    requires Grown(n, nodes, last)
    requires n !in done && Forest(front, done, fts)
    modifies n`children
    decreases sub, 3
    ensures fresh(nodes' - nodes) && nodes <= nodes' && Grown(n, nodes', last')
    ensures Forest(front, done, fts)
    ensures r.Pass? <==> GenKids(sub, m, true).Success?
    ensures r.Fail? ==> r.error == GenKids(sub, m, true).error
    ensures r.Pass? ==> last' == last.(kids := last.kids + GenKids(sub, m, true).value)
  {
    ghost var oc := n.children;
    GrownForest(n, nodes, last);
    ghost var kids, made;
    r, kids, made := GenerateTree(n, sub, m);
    GraftGhost(n, nodes, made, oc, kids, last);
    nodes' := nodes + made;
    last' := last.(kids := last.kids + SnapshotList(kids, made));
  }

  /** The loop state of _generate_tree as seen from `node`: the children
      appended so far, `kids`, follow the ones it had before (`base`), name
      it as their parent, and are built as Building says. */
  ghost predicate Importing(node: BookmarkNode?, base: seq<BookmarkNode>, kids: seq<BookmarkNode>, front: seq<BookmarkNode>,
                            current: BookmarkNode?, done: set<BookmarkNode>, cur: set<BookmarkNode>, ts: seq<Tree>)
    reads node, kids, done, cur
  {
    && (node == null ==> kids == [])
    && (node != null ==> node.children == base + kids)
    && (forall c :: c in kids ==> c.parent == node)
    && Building(kids, front, current, done, cur, ts)
  }

  /** The state of _generate_tree's loop: the children appended so far,
      `kids`, are the finished siblings `front`, whose nodes are `done`,
      followed by the node created last, `current`, whose nodes are `cur`;
      their trees are ts. */
  ghost predicate Building(kids: seq<BookmarkNode>, front: seq<BookmarkNode>, current: BookmarkNode?,
                           done: set<BookmarkNode>, cur: set<BookmarkNode>, ts: seq<Tree>)
    reads done, cur
  {
    && done !! cur
    && kids == (if current == null then [] else front + [current])
    && (current == null ==> front == [] && cur == {} && ts == [])
    && (current != null ==> |ts| == |front| + 1 && Grown(current, cur, ts[|ts| - 1]))
    && |front| <= |ts| && Forest(front, done, ts[..|front|])
  }

  /** n is finite and linked within `nodes`, and its tree is t. */
  ghost predicate Grown(n: BookmarkNode, nodes: set<BookmarkNode>, t: Tree)
    reads nodes
  {
    Finite(n, nodes) && Linked(n, nodes) && Snapshot(n, nodes) == t
  }

  /** Every node of cs is finite and linked within `nodes`, and their trees
      are ts. */
  ghost predicate Forest(cs: seq<BookmarkNode>, nodes: set<BookmarkNode>, ts: seq<Tree>)
    reads nodes
  {
    (forall c :: c in cs ==> Finite(c, nodes) && Linked(c, nodes)) && SnapshotList(cs, nodes) == ts
  }

  lemma {:induction false} GrownForest(n: BookmarkNode, nodes: set<BookmarkNode>, t: Tree)
    requires Grown(n, nodes, t)
    ensures n in nodes && Forest(n.children, nodes - {n}, t.kids)
    ensures forall c :: c in n.children ==> c.parent == n
    ensures t.title == n.title && t.pageNumber == n.pageNumber && t.isRoot == (n.parent == null)
  {
  }

  /** The children built so far as one forest: the finished siblings in
      `done`, the one still being filled in `cur`. */
  lemma {:induction false} Assemble(kids: seq<BookmarkNode>, front: seq<BookmarkNode>, current: BookmarkNode?,
                                    done: set<BookmarkNode>, cur: set<BookmarkNode>, ts: seq<Tree>)
      returns (all: set<BookmarkNode>)
    requires Building(kids, front, current, done, cur, ts)
    ensures all == done + cur
    ensures Forest(kids, all, ts)
  {
    all := done + cur;
    SnapshotListGrows(front, done, all);
    forall c | c in front ensures Linked(c, all) {
      LinkedGrows(c, done, all);
    }
    if current != null {
      FiniteGrows(current, cur, all);
      LinkedGrows(current, cur, all);
      var ks := front + [current];
      assert ks[..|ks| - 1] == front;
      assert ts == ts[..|front|] + [ts[|ts| - 1]];
    }
  }

  /** A node whose children list grew by `more`, each of them finite in a
      set of fresh nodes: its tree gains their trees as further children. */
  lemma {:induction false} GraftGhost(n: BookmarkNode, nodes: set<BookmarkNode>, extra: set<BookmarkNode>,
                   before: seq<BookmarkNode>, more: seq<BookmarkNode>, t: Tree)
    requires n in nodes && n !in extra && nodes !! extra
    requires n.children == before + more
    requires Forest(before, nodes - {n}, t.kids)
    requires forall c :: c in n.children ==> c.parent == n
    requires t.title == n.title && t.pageNumber == n.pageNumber && t.isRoot == (n.parent == null)
    requires forall c :: c in more ==> Finite(c, extra) && Linked(c, extra)
    ensures Grown(n, nodes + extra, t.(kids := t.kids + SnapshotList(more, extra)))
  {
    var rest := (nodes + extra) - {n};
    SnapshotListGrows(before, nodes - {n}, rest);
    SnapshotListGrows(more, extra, rest);
    SnapshotListAppend(before, more, rest);
    forall c | c in n.children ensures Finite(c, rest) && Linked(c, rest) {
      if c in before {
        LinkedGrows(c, nodes - {n}, rest);
      } else {
        LinkedGrows(c, extra, rest);
      }
    }
  }

  lemma {:induction false} SnapshotListAppend(a: seq<BookmarkNode>, b: seq<BookmarkNode>, nodes: set<BookmarkNode>)
    requires forall c :: c in a + b ==> Finite(c, nodes)
    ensures SnapshotList(a + b, nodes) == SnapshotList(a, nodes) + SnapshotList(b, nodes)
    decreases |b|
  {
    if b == [] {
      assert a + b == a;
    } else {
      assert (a + b)[..|a + b| - 1] == a + b[..|b| - 1];
      SnapshotListAppend(a, b[..|b| - 1], nodes);
    }
  }

  /** The line print_children writes for the child at index k. */
  function ChildLine(k: nat, c: BookmarkNode): string
    reads c
  {
    Indexed(k, c.Repr())
  }

  /** The lines print_children writes for the given children. */
  function ChildLines(cs: seq<BookmarkNode>): (r: seq<string>)
    reads set c | c in cs
    ensures |r| == |cs|
  {
    if cs == [] then [] else ChildLines(cs[..|cs| - 1]) + [ChildLine(|cs| - 1, cs[|cs| - 1])]
  }

  /** Line k of `listing` is the one print_children writes for cs[k]. */
  ghost predicate Listed(listing: seq<string>, cs: seq<BookmarkNode>, k: nat)
    requires k < |cs|
    reads cs[k]
  {
    k < |listing| && listing[k] == ChildLine(k, cs[k])
  }

  lemma {:induction false} ChildLinesAt(cs: seq<BookmarkNode>, k: nat)
    requires k < |cs|
    ensures ChildLines(cs)[k] == ChildLine(k, cs[k])
    decreases |cs|
  {
    if k < |cs| - 1 {
      assert cs[..|cs| - 1][k] == cs[k];
      ChildLinesAt(cs[..|cs| - 1], k);
    }
  }

  /** Each print_children line gives back the child's index and its
      __repr__ text, and is the line print_tree would print for the child
      at depth 0. */
  lemma {:induction false} ChildLinesParse(cs: seq<BookmarkNode>, k: nat)
    requires k < |cs|
    ensures ParseLine(ChildLines(cs)[k]) == Some((0, k, cs[k].Repr()))
  {
    ChildLinesAt(cs, k);
    ChildLineTextParses(k, cs[k].Repr());
  }

  // ---------------------------------------------------------------------
  // The tree a node reaches
  // ---------------------------------------------------------------------

  /** Every node reachable from n through `children` lies in `nodes`, and no
      path revisits a node: each step down leaves the set without the node
      just passed. */
  ghost predicate Finite(n: BookmarkNode, nodes: set<BookmarkNode>)
    reads nodes
    decreases nodes
  {
    n in nodes && forall c :: c in n.children ==> Finite(c, nodes - {n})
  }

  /** Within `nodes`, every child of every node reachable from n names that
      node as its parent, the back-link add_child sets. */
  ghost predicate Linked(n: BookmarkNode, nodes: set<BookmarkNode>)
    reads nodes
    decreases nodes
  {
    n in nodes && forall c :: c in n.children ==> Linked(c, nodes - {n}) && c.parent == n
  }

  lemma {:induction false} LinkedGrows(n: BookmarkNode, A: set<BookmarkNode>, B: set<BookmarkNode>)
    requires Linked(n, A) && A <= B
    ensures Linked(n, B)
    decreases A
  {
    forall c | c in n.children ensures Linked(c, B - {n}) && c.parent == n {
      LinkedGrows(c, A - {n}, B - {n});
    }
  }

  /** An edit that only reorders or drops children of one node p, as move_to
      and remove do, keeps every linked tree linked. */
  twostate lemma LinkedKept(n: BookmarkNode, nodes: set<BookmarkNode>, p: BookmarkNode)
    requires old(Linked(n, nodes))
    requires forall x :: x in nodes && x != p ==> x.children == old(x.children) && x.parent == old(x.parent)
    requires p.parent == old(p.parent)
    requires forall c :: c in p.children ==> c in old(p.children)
    ensures Linked(n, nodes)
    decreases nodes
  {
    // By induction on `nodes`, which Dafny carries out for this lemma: each
    // child of n is still listed, still names n and is still linked below.
  }

  /** A linked tree is finite: Linked walks the same paths as Finite. */
  lemma {:induction false} LinkedFinite(n: BookmarkNode, nodes: set<BookmarkNode>)
    requires Linked(n, nodes)
    ensures Finite(n, nodes)
    decreases nodes
  {
    forall c | c in n.children ensures Finite(c, nodes - {n}) {
      LinkedFinite(c, nodes - {n});
    }
  }

  /** The children lists of the given nodes, as a map. */
  ghost function KidsOf(nodes: set<BookmarkNode>): (m: map<BookmarkNode, seq<BookmarkNode>>)
    reads nodes
    ensures m.Keys == nodes
    ensures forall y {:trigger m[y]} :: y in nodes ==> m[y] == y.children
    decreases nodes
  {
    if nodes == {} then map[] else
    var y :| y in nodes;
    KidsOf(nodes - {y})[y := y.children]
  }

  /** The parents of those of the given nodes that have one, as a map. */
  ghost function ParentsOf(nodes: set<BookmarkNode>): (m: map<BookmarkNode, BookmarkNode>)
    reads nodes
    ensures m.Keys <= nodes
    ensures forall y :: y in nodes ==> (y in m <==> y.parent != null)
    ensures forall y {:trigger m[y]} :: y in m ==> m[y] == y.parent
    decreases nodes
  {
    if nodes == {} then map[] else
    var y :| y in nodes;
    if y.parent == null then ParentsOf(nodes - {y}) else ParentsOf(nodes - {y})[y := y.parent]
  }

  /** The heap's children lists are K0 except perhaps at x. */
  lemma KidsUpdated(nodes: set<BookmarkNode>, K0: map<BookmarkNode, seq<BookmarkNode>>, x: BookmarkNode)
    requires K0.Keys == nodes
    requires forall k :: k in nodes && k != x ==> k.children == K0[k]
    ensures KidsOf(nodes) == if x in nodes then K0[x := x.children] else K0
  {
    if x in nodes {
      MapSet(K0, KidsOf(nodes), x, x.children);
    } else {
      MapSame(K0, KidsOf(nodes));
    }
  }

  /** The heap's parents are P0 except at x, which now has a parent. */
  lemma ParentsUpdated(nodes: set<BookmarkNode>, P0: map<BookmarkNode, BookmarkNode>, x: BookmarkNode)
    requires P0.Keys <= nodes && x.parent != null
    requires forall k :: k in nodes && k != x ==> (k in P0 <==> k.parent != null) && (k in P0 ==> P0[k] == k.parent)
    ensures ParentsOf(nodes) == if x in nodes then P0[x := x.parent] else P0
  {
    if x in nodes {
      MapSet(P0, ParentsOf(nodes), x, x.parent);
    } else {
      MapSame(P0, ParentsOf(nodes));
    }
  }

  /** The heap's parents are P0. */
  lemma ParentsKept(nodes: set<BookmarkNode>, P0: map<BookmarkNode, BookmarkNode>)
    requires P0.Keys <= nodes
    requires forall k :: k in nodes ==> (k in P0 <==> k.parent != null) && (k in P0 ==> P0[k] == k.parent)
    ensures ParentsOf(nodes) == P0
  {
    MapSame(P0, ParentsOf(nodes));
  }

  /** Linked says of the heap what Links.TreeIn says of the recorded links. */
  lemma {:induction false} LinkedAsMaps(n: BookmarkNode, A: set<BookmarkNode>, nodes: set<BookmarkNode>)
    requires A <= nodes
    ensures Linked(n, A) <==> TreeIn(n, A, KidsOf(nodes), ParentsOf(nodes))
    decreases A
  {
    if n in A {
      forall c | c in n.children {
        LinkedAsMaps(c, A - {n}, nodes);
      }
    }
  }

  /** Below a linked node every node has a parent, so the export of a linked
      tree meets the premise of Trees.ExportDecodes. */
  lemma {:induction false} LinkedHasParents(n: BookmarkNode, nodes: set<BookmarkNode>)
    requires Linked(n, nodes)
    ensures Finite(n, nodes) && AllHaveParents(Snapshot(n, nodes).kids)
    decreases nodes
  {
    LinkedFinite(n, nodes);
    var t := Snapshot(n, nodes);
    forall i | 0 <= i < |t.kids| ensures HasParents(t.kids[i]) {
      var c := n.children[i];
      KidSnapshot(n, nodes, i);
      LinkedHasParents(c, nodes - {n});
    }
  }

  /** Exporting a linked root with add_to_pdf gives a log that decodes back
      to the root's subtrees, however the tree was built or edited. */
  lemma {:induction false} LinkedExportDecodes(n: BookmarkNode, nodes: set<BookmarkNode>)
    requires Linked(n, nodes) && n.parent == null
    ensures Finite(n, nodes)
    ensures Decode(Emit(Snapshot(n, nodes), 0, None)) == ShapeKids(Snapshot(n, nodes).kids)
  {
    LinkedHasParents(n, nodes);
    ExportDecodes(Snapshot(n, nodes));
  }

  /** The value of the tree below n: titles, page numbers, whether each node
      has a parent, and the children in list order. */
  ghost function Snapshot(n: BookmarkNode, nodes: set<BookmarkNode>): (t: Tree)
    requires Finite(n, nodes)
    reads nodes
    decreases nodes, 0
    ensures t.title == n.title && t.pageNumber == n.pageNumber
    ensures t.isRoot == (n.parent == null) && |t.kids| == |n.children|
  {
    Tree(n.title, n.pageNumber, n.parent == null, SnapshotList(n.children, nodes - {n}))
  }

  ghost function SnapshotList(cs: seq<BookmarkNode>, nodes: set<BookmarkNode>): (ts: seq<Tree>)
    requires forall c :: c in cs ==> Finite(c, nodes)
    reads nodes
    decreases nodes, 1, |cs|
    ensures |ts| == |cs|
  {
    if cs == [] then [] else SnapshotList(cs[..|cs| - 1], nodes) + [Snapshot(cs[|cs| - 1], nodes)]
  }

  lemma {:induction false} Unfold(n: BookmarkNode, nodes: set<BookmarkNode>)
    requires Finite(n, nodes)
    ensures forall c :: c in n.children ==> Finite(c, nodes - {n})
    ensures Snapshot(n, nodes).kids == SnapshotList(n.children, nodes - {n})
  {
  }

  /** Child i of n is finite within the nodes below n, and its snapshot is
      child i of n's snapshot. */
  lemma {:induction false} KidSnapshot(n: BookmarkNode, nodes: set<BookmarkNode>, i: nat)
    requires Finite(n, nodes) && i < |n.children|
    ensures Finite(n.children[i], nodes - {n})
    ensures Snapshot(n.children[i], nodes - {n}) == Snapshot(n, nodes).kids[i]
  {
    Unfold(n, nodes);
    SnapshotListAt(n.children, nodes - {n}, i);
  }

  /** The line print_tree prints for a node is the one formatted from its
      snapshot. */
  lemma {:induction false} LineOfNode(n: BookmarkNode, nodes: set<BookmarkNode>, num: nat, depth: nat)
    requires Finite(n, nodes)
    ensures Line(Visit(Snapshot(n, nodes), depth, num)) == Spaces(3 * depth) + ChildLine(num, n)
  {
  }

  lemma {:induction false} SnapshotListAt(cs: seq<BookmarkNode>, nodes: set<BookmarkNode>, k: nat)
    requires k < |cs| && forall c :: c in cs ==> Finite(c, nodes)
    ensures SnapshotList(cs, nodes)[k] == Snapshot(cs[k], nodes)
    decreases |cs|
  {
    if k < |cs| - 1 {
      assert cs[..|cs| - 1][k] == cs[k];
      SnapshotListAt(cs[..|cs| - 1], nodes, k);
    }
  }

  /** Neither finiteness nor the snapshot depends on which larger set of
      nodes is named. */
  lemma {:induction false} FiniteGrows(n: BookmarkNode, A: set<BookmarkNode>, B: set<BookmarkNode>)
    requires Finite(n, A) && A <= B
    ensures Finite(n, B) && Snapshot(n, A) == Snapshot(n, B)
    decreases A, 0
  {
    forall c | c in n.children ensures Finite(c, B - {n}) {
      FiniteGrows(c, A - {n}, B - {n});
    }
    SnapshotListGrows(n.children, A - {n}, B - {n});
  }

  lemma {:induction false} SnapshotListGrows(cs: seq<BookmarkNode>, A: set<BookmarkNode>, B: set<BookmarkNode>)
    requires (forall c :: c in cs ==> Finite(c, A)) && A <= B
    ensures forall c :: c in cs ==> Finite(c, B)
    ensures SnapshotList(cs, A) == SnapshotList(cs, B)
    decreases A, 1, |cs|
  {
    forall c | c in cs ensures Finite(c, B) {
      FiniteGrows(c, A, B);
    }
    if cs != [] {
      SnapshotListGrows(cs[..|cs| - 1], A, B);
      FiniteGrows(cs[|cs| - 1], A, B);
    }
  }
}

=== FILE: formatting.dfy ===
/**
 * Text produced by BookmarkNode.__repr__ and print_tree: Python's decimal
 * rendering of integers, the node description "<title> -> p<page>" with an
 * optional ", c<children>" suffix, and a parser for that description that
 * shows no information is lost.
 */
module Formatting {
  import opened Wrappers

  function DigitChar(d: nat): (c: char)
    requires d < 10
    ensures IsDigit(c) && DigitValue(c) == d
  {
    (d + '0' as int) as char
  }

  predicate IsDigit(c: char) {
    '0' <= c <= '9'
  }

  function DigitValue(c: char): nat
    requires IsDigit(c)
  {
    c as int - '0' as int
  }

  predicate AllDigits(s: string) {
    forall k :: 0 <= k < |s| ==> IsDigit(s[k])
  }

  /** str(n) for n >= 0: decimal digits, most significant first. */
  function NatToString(n: nat): (s: string)
    ensures |s| > 0
    ensures AllDigits(s)
    ensures |s| > 1 ==> s[0] != '0'
  {
    if n < 10 then [DigitChar(n)] else NatToString(n / 10) + [DigitChar(n % 10)]
  }

  /** str(i) for any Python int: a minus sign before a negative number. */
  function IntToString(i: int): (s: string)
    ensures |s| > 0
    ensures ',' !in s
  {
    if i < 0 then "-" + NatToString(-i) else NatToString(i)
  }

  /** The value of a string of decimal digits; None if it is empty or holds
      anything else. */
  function ParseNat(s: string): Option<nat>
  {
    if s != [] && AllDigits(s) then Some(DigitsValue(s)) else None
  }

  function DigitsValue(s: string): nat
    requires AllDigits(s)
  {
    if s == [] then 0
    else DigitsValue(s[..|s| - 1]) * 10 + DigitValue(s[|s| - 1])
  }

  function ParseInt(s: string): Option<int>
  {
    if |s| > 0 && s[0] == '-' then
      match ParseNat(s[1..])
      case Some(n) => Some(-(n as int))
      case None => None
    else
      match ParseNat(s)
      case Some(n) => Some(n)
      case None => None
  }

  lemma {:induction false} NatRoundTrip(n: nat)
    ensures DigitsValue(NatToString(n)) == n
    ensures ParseNat(NatToString(n)) == Some(n)
  {
    var s := NatToString(n);
    if n >= 10 {
      NatRoundTrip(n / 10);
      assert s[..|s| - 1] == NatToString(n / 10);
      assert DigitValue(s[|s| - 1]) == n % 10;
    }
  }

  /** Reading back what str(i) prints gives i. */
  lemma {:induction false} IntRoundTrip(i: int)
    ensures ParseInt(IntToString(i)) == Some(i)
  {
    if i < 0 {
      NatRoundTrip(-i);
      assert IntToString(i)[1..] == NatToString(-i);
    } else {
      NatRoundTrip(i);
      if |NatToString(i)| > 1 {
        assert NatToString(i)[0] != '-';
      } else {
        assert IsDigit(NatToString(i)[0]);
      }
    }
  }

  /** BookmarkNode.__repr__: title, page number, and the child count only
      when there are children. */
  function Describe(title: string, pageNumber: int, childCount: nat): string
  {
    title + " -> p" + PageText(pageNumber, childCount)
  }

  /** The part of a description after " -> p". */
  function PageText(pageNumber: int, childCount: nat): string
  {
    IntToString(pageNumber) + (if childCount > 0 then ", c" + NatToString(childCount) else "")
  }

  /** Position of the first c in s, or |s| when there is none. */
  function Find(s: string, c: char): (i: nat)
    ensures i <= |s|
    ensures i < |s| ==> s[i] == c
    ensures forall j :: 0 <= j < i ==> s[j] != c
  {
    if s == [] then 0 else if s[0] == c then 0 else 1 + Find(s[1..], c)
  }

  /** Reads a description back, given the length of the title (a title may
      itself contain " -> p", so it cannot be found by searching). */
  function ParseDescription(s: string, titleLength: nat): Option<(string, int, nat)>
  {
    if titleLength + 5 > |s| || s[titleLength..titleLength + 5] != " -> p" then None
    else match ParsePageText(s[titleLength + 5..])
      case None => None
      case Some(pc) => Some((s[..titleLength], pc.0, pc.1))
  }

  /** Reads the page number and the optional ", c<count>" suffix. */
  function ParsePageText(rest: string): Option<(int, nat)>
  {
    var comma := Find(rest, ',');
    match ParseInt(rest[..comma])
    case None => None
    case Some(page) =>
      if comma == |rest| then Some((page, 0))
      else if comma + 3 > |rest| || rest[comma..comma + 3] != ", c" then None
      else match ParseNat(rest[comma + 3..])
        case None => None
        case Some(count) => if count == 0 then None else Some((page, count))
  }

  lemma {:induction false} PageTextParses(pageNumber: int, childCount: nat)
    ensures ParsePageText(PageText(pageNumber, childCount)) == Some((pageNumber, childCount))
  {
    var p := IntToString(pageNumber);
    var rest := PageText(pageNumber, childCount);
    IntRoundTrip(pageNumber);
    if childCount > 0 {
      var suffix := ", c" + NatToString(childCount);
      FindAfter(p, suffix, ',');
      assert rest[..|p|] == p;
      assert rest[|p|..|p| + 3] == ", c";
      assert rest[|p| + 3..] == NatToString(childCount);
      NatRoundTrip(childCount);
    } else {
      assert rest == p;
      assert rest[..|rest|] == p;
    }
  }

  /** __repr__ loses nothing: title, page number and child count can be read
      back from it. */
  lemma {:induction false} DescribeParses(title: string, pageNumber: int, childCount: nat)
    ensures ParseDescription(Describe(title, pageNumber, childCount), |title|)
         == Some((title, pageNumber, childCount))
  {
    var s := Describe(title, pageNumber, childCount);
    var t := PageText(pageNumber, childCount);
    assert s == title + (" -> p" + t);
    assert s[..|title|] == title;
    assert s[|title|..|title| + 5] == " -> p";
    assert s[|title| + 5..] == t;
    PageTextParses(pageNumber, childCount);
  }

  lemma {:induction false} FindAfter(a: string, b: string, c: char)
    requires c !in a && |b| > 0 && b[0] == c
    ensures Find(a + b, c) == |a|
  {
    if a != [] {
      assert (a + b)[1..] == a[1..] + b;
      FindAfter(a[1..], b, c);
    }
  }
}

=== FILE: links.dfy ===
/**
 * The parent and children links of a set of bookmark nodes, recorded as
 * plain maps: `kids[y]` is the children list of y and `parents[y]` its
 * parent, when it has one. A well-formed tree in these terms is what
 * `Bookmarks.Linked` says about the heap; here edits are map updates, so
 * the effect of re-parenting a node can be reasoned about on values.
 */
module Links {

  /** n's tree is well formed within A: every node it reaches lies in A,
      no path revisits a node, and every listed child names the node that
      lists it as its parent. */
  ghost predicate TreeIn<T>(n: T, A: set<T>, kids: map<T, seq<T>>, parents: map<T, T>)
    decreases A
  {
    n in A && n in kids &&
    forall c :: c in kids[n] ==> c in parents && parents[c] == n && TreeIn(c, A - {n}, kids, parents)
  }

  /** A tree well formed within A is well formed within any larger set. */
  lemma {:induction false} TreeGrows<T>(n: T, A: set<T>, B: set<T>, kids: map<T, seq<T>>, parents: map<T, T>)
    requires TreeIn(n, A, kids, parents) && A <= B
    ensures TreeIn(n, B, kids, parents)
    decreases A
  {
    forall c | c in kids[n] ensures TreeIn(c, B - {n}, kids, parents) {
      TreeGrows(c, A - {n}, B - {n}, kids, parents);
    }
  }

  /** A node other than y whose parent lies outside A (or that has none)
      is not in y's tree: that tree stays well formed without it. */
  lemma {:induction false} TreeAvoids<T>(y: T, A: set<T>, kids: map<T, seq<T>>, parents: map<T, T>, c: T)
    requires TreeIn(y, A, kids, parents)
    requires c != y && (c in parents ==> parents[c] !in A)
    ensures TreeIn(y, A - {c}, kids, parents)
    decreases A
  {
    forall d | d in kids[y] ensures TreeIn(d, A - {c} - {y}, kids, parents) {
      TreeAvoids(d, A - {y}, kids, parents, c);
      assert A - {y} - {c} == A - {c} - {y};
    }
  }

  /** Dropping children from lists, and changing the parent only of the
      tree's own top node, keeps a tree well formed. */
  lemma {:induction false} TreeKept<T>(y: T, A: set<T>, kids: map<T, seq<T>>, parents: map<T, T>,
                                       kids': map<T, seq<T>>, parents': map<T, T>)
    requires TreeIn(y, A, kids, parents)
    requires forall z :: z in A && z in kids ==> z in kids'
    requires forall z, c :: z in A && z in kids && c in kids'[z] ==> c in kids[z]
    requires forall z :: z in A && z != y && z in parents ==> z in parents' && parents'[z] == parents[z]
    ensures TreeIn(y, A, kids', parents')
    decreases A
  {
    forall c | c in kids'[y] ensures c in parents' && parents'[c] == y && TreeIn(c, A - {y}, kids', parents') {
      TreeKept(c, A - {y}, kids, parents, kids', parents');
    }
  }

  /** m' is m with the entry for y set to v. */
  lemma MapSet<K, V>(m: map<K, V>, m': map<K, V>, y: K, v: V)
    requires forall k :: k != y ==> (k in m' <==> k in m)
    requires forall k :: k in m && k != y ==> m'[k] == m[k]
    requires y in m' && m'[y] == v
    ensures m' == m[y := v]
  {
  }

  /** m' and m have the same keys and the same values. */
  lemma MapSame<K, V>(m: map<K, V>, m': map<K, V>)
    requires forall k :: k in m' <==> k in m
    requires forall k :: k in m ==> m'[k] == m[k]
    ensures m' == m
  {
  }

  /** How the children lists change when x is re-parented under np: every
      list holds at most what it held before, except that np may also list
      x, and no other node lists x where x names it as its parent. */
  ghost predicate Relisted<T>(kids: map<T, seq<T>>, kids': map<T, seq<T>>, parents: map<T, T>, x: T, np: T)
  {
    && (forall z :: z in kids ==> z in kids')
    && (forall z, c :: z in kids && c in kids'[z] ==> c in kids[z] || (z == np && c == x))
    && (forall z :: z in kids && z != np && x in kids'[z] ==> !(x in parents && parents[x] == z))
  }

  /** set_parent in terms of the recorded links of the nodes D: first the
      list of np becomes L1, its old list and x; then the list L0 of x's
      old parent op becomes L2, a part of L0 without x (unless op is np).
      That is a Relisted change. */
  lemma {:induction false} MoveRelists<T>(kids: map<T, seq<T>>, kids': map<T, seq<T>>, parents: map<T, T>, D: set<T>,
                                          x: T, np: T, L1: seq<T>, op: T, L0: seq<T>, L2: seq<T>)
    requires kids.Keys == D
    requires var mid := if np in D then kids[np := L1] else kids;
      kids' == if op in D then mid[op := L2] else mid
    requires np in D ==> forall c :: c in L1 ==> c in kids[np] || c == x
    requires op in D ==> L0 == if op == np then L1 else kids[op]
    requires forall c :: c in L2 ==> c in L0
    requires op != np ==> x !in L2
    requires x in parents ==> parents[x] == op
    ensures Relisted(kids, kids', parents, x, np)
  {
  }

  /** The step of a re-parenting below a node n that lies outside x's
      subtree: kids' lists at most what kids did, except that `np` may also
      list x, and x is listed nowhere else where its old parent would have
      to list it; x's parent becomes np. Then n's tree stays well formed. */
  lemma {:induction false} Reattach<T>(n: T, B: set<T>, kids: map<T, seq<T>>, parents: map<T, T>,
                                       kids': map<T, seq<T>>, parents': map<T, T>, x: T, np: T)
    requires TreeIn(n, B, kids, parents)
    requires TreeIn(x, B - {n}, kids, parents)
    requires Relisted(kids, kids', parents, x, np)
    requires parents' == parents[x := np]
    ensures TreeIn(n, B, kids', parents')
    decreases B
  {
    forall c | c in kids'[n] ensures c in parents' && parents'[c] == n && TreeIn(c, B - {n}, kids', parents') {
      if c == x {
        if n == np {
          TreeKept(x, B - {n}, kids, parents, kids', parents');
        } else {
          assert false;
        }
      } else {
        TreeAvoids(x, B - {n}, kids, parents, c);
        Reattach(c, B - {n}, kids, parents, kids', parents', x, np);
      }
    }
  }

  /** Re-parenting x under np, where np is outside x's subtree and that
      subtree is well formed, keeps the tree of every parentless root well
      formed: its old tree minus x's subtree, plus x's subtree below np
      when np is in it. */
  lemma {:induction false} Reparent<T>(root: T, S: set<T>, kids: map<T, seq<T>>, parents: map<T, T>,
                                       kids': map<T, seq<T>>, parents': map<T, T>, x: T, np: T)
    requires TreeIn(root, S, kids, parents) && root !in parents
    requires TreeIn(x, S - {np}, kids, parents)
    requires Relisted(kids, kids', parents, x, np)
    requires parents' == parents[x := np]
    ensures TreeIn(root, S, kids', parents')
  {
    if root == x {
      TreeKept(x, S - {np}, kids, parents, kids', parents');
      TreeGrows(x, S - {np}, S, kids', parents');
    } else {
      TreeAvoids(x, S - {np}, kids, parents, root);
      TreeGrows(x, S - {np} - {root}, S - {root}, kids, parents);
      Reattach(root, S, kids, parents, kids', parents', x, np);
    }
  }
}

=== FILE: outline.dfy ===
/**
 * The outline half of BookmarkNode.load_from_pdf (_generate_tree) as a
 * function on values: which children an outline list produces under the
 * node being filled, and when it fails. The heap version in module
 * Bookmarks is proved to build exactly these children.
 */
module OutlineImport {
  import opened Wrappers
  import opened Trees

  /** An item of pdfreader.outlines: a bookmark entry (its title and the
      object number of its destination page), or a list holding the items
      nested under the entry before it. */
  datatype OutlineItem = Entry(title: string, pageId: int) | Nested(items: seq<OutlineItem>)

  /** A node made from an entry: page_number is the page's index plus one. */
  function NewNode(title: string, pageIndex: nat): Tree
  {
    Tree(title, pageIndex + 1, false, [])
  }

  /** The children _generate_tree(node, items) appends to `node`
      (`hasNode`: node is not None), or the exception it raises. An entry
      looks its page up first (KeyError), then is attached (AttributeError
      when node is None). A list fills the node created last at this level,
      or recurses with None when there is none yet. */
  function GenKids(items: seq<OutlineItem>, m: map<int, nat>, hasNode: bool): Result<seq<Tree>, PyError>
    decreases items
  {
    if items == [] then Success([])
    else
      match GenKids(items[..|items| - 1], m, hasNode)
      case Failure(e) => Failure(e)
      case Success(ks) =>
        match items[|items| - 1]
        case Entry(title, id) =>
          if id !in m then Failure(KeyError(id))
          else if !hasNode then Failure(NoneHasNoAttribute)
          else Success(ks + [NewNode(title, m[id])])
        case Nested(sub) =>
          match GenKids(sub, m, ks != [])
          case Failure(e) => Failure(e)
          case Success(sks) =>
            if ks == [] then Success(ks)
            else Success(Graft(ks, sks))
  }

  /** `ks` with `sks` appended to the children of its last node. */
  function Graft(ks: seq<Tree>, sks: seq<Tree>): seq<Tree>
    requires ks != []
  {
    ks[..|ks| - 1] + [ks[|ks| - 1].(kids := ks[|ks| - 1].kids + sks)]
  }

  /** Every entry of the outline, at any depth, in outline order. */
  function Entries(items: seq<OutlineItem>): seq<(string, int)>
    decreases items
  {
    if items == [] then []
    else
      var last := match items[|items| - 1]
        case Entry(title, id) => [(title, id)]
        case Nested(sub) => Entries(sub);
      Entries(items[..|items| - 1]) + last
  }

  /** Every entry has somewhere to go: there is a node to attach it to, and
      a list comes after an entry of its own level (or holds no entries). */
  predicate Placeable(items: seq<OutlineItem>, hasNode: bool)
    decreases items
  {
    forall i :: 0 <= i < |items| ==>
      match items[i]
      case Entry(_, _) => hasNode
      case Nested(sub) => Placeable(sub, hasNode && exists j :: 0 <= j < i && items[j].Entry?)
  }

  /** Title, page number and parent-ness of a node. */
  function Label(n: Tree): (string, int, bool) {
    (n.title, n.pageNumber, n.isRoot)
  }

  function Labels(ns: seq<Tree>): (r: seq<(string, int, bool)>)
  {
    seq(|ns|, i requires 0 <= i < |ns| => Label(ns[i]))
  }

  /** What the nodes made from the entries es must carry. */
  function Expected(es: seq<(string, int)>, m: map<int, nat>): (r: seq<(string, int, bool)>)
    requires AllMapped(es, m)
  {
    seq(|es|, k requires 0 <= k < |es| => (es[k].0, m[es[k].1] + 1, false))
  }

  predicate AllMapped(es: seq<(string, int)>, m: map<int, nat>) {
    forall k :: 0 <= k < |es| ==> es[k].1 in m
  }

  predicate HasEntry(items: seq<OutlineItem>) {
    exists j :: 0 <= j < |items| && items[j].Entry?
  }

  lemma {:induction false} PlaceableSnoc(items: seq<OutlineItem>, hasNode: bool)
    requires items != []
    ensures var init := items[..|items| - 1];
      Placeable(items, hasNode) <==>
        Placeable(init, hasNode) &&
        match items[|items| - 1]
        case Entry(_, _) => hasNode
        case Nested(sub) => Placeable(sub, hasNode && HasEntry(init))
  {
    var init := items[..|items| - 1];
    forall i | 0 <= i < |init| ensures init[i] == items[i] && (HasEntry(init[..i]) <==> HasEntry(items[..i])) {
      assert init[..i] == items[..i];
    }
    assert forall i :: 0 <= i < |items| ==>
      ((exists j :: 0 <= j < i && items[j].Entry?) <==> HasEntry(items[..i]));
    assert forall i :: 0 <= i < |init| ==>
      ((exists j :: 0 <= j < i && init[j].Entry?) <==> HasEntry(init[..i]));
    assert items[..|items| - 1] == init;
  }

  lemma {:induction false} AllMappedAppend(a: seq<(string, int)>, b: seq<(string, int)>, m: map<int, nat>)
    ensures AllMapped(a + b, m) <==> AllMapped(a, m) && AllMapped(b, m)
  {
    if AllMapped(a, m) && AllMapped(b, m) {
      forall k | 0 <= k < |a + b| ensures (a + b)[k].1 in m {
        if k >= |a| {
          assert (a + b)[k] == b[k - |a|];
        }
      }
    }
    if AllMapped(a + b, m) {
      forall k | 0 <= k < |b| ensures b[k].1 in m {
        assert (a + b)[|a| + k] == b[k];
      }
      forall k | 0 <= k < |a| ensures a[k].1 in m {
        assert (a + b)[k] == a[k];
      }
    }
  }

  /** Children are made at this level exactly when there is a node and an
      entry in the list. */
  lemma {:induction false} KidsNonEmpty(items: seq<OutlineItem>, m: map<int, nat>, hasNode: bool)
    requires GenKids(items, m, hasNode).Success?
    ensures GenKids(items, m, hasNode).value != [] <==> hasNode && HasEntry(items)
    decreases items
  {
    if items != [] {
      var init := items[..|items| - 1];
      KidsNonEmpty(init, m, hasNode);
      assert HasEntry(items) <==> HasEntry(init) || items[|items| - 1].Entry? by {
        if HasEntry(init) {
          var j :| 0 <= j < |init| && init[j].Entry?;
          assert items[j] == init[j];
        }
        if HasEntry(items) && !items[|items| - 1].Entry? {
          var j :| 0 <= j < |items| && items[j].Entry?;
          assert init[j] == items[j];
        }
      }
    }
  }

  /** _generate_tree succeeds exactly when every entry's page is in the
      page-ID map and every entry has a node to go under; otherwise it raises
      KeyError or AttributeError. */
  lemma {:induction false} GenKidsSucceeds(items: seq<OutlineItem>, m: map<int, nat>, hasNode: bool)
    ensures GenKids(items, m, hasNode).Success? <==> Placeable(items, hasNode) && AllMapped(Entries(items), m)
    ensures GenKids(items, m, hasNode).Failure? ==>
      GenKids(items, m, hasNode).error == NoneHasNoAttribute ||
      (GenKids(items, m, hasNode).error.KeyError? && GenKids(items, m, hasNode).error.key !in m)
    decreases items
  {
    if items != [] {
      var init := items[..|items| - 1];
      GenKidsSucceeds(init, m, hasNode);
      PlaceableSnoc(items, hasNode);
      match items[|items| - 1]
      case Entry(title, id) =>
        assert Entries(items) == Entries(init) + [(title, id)];
        AllMappedAppend(Entries(init), [(title, id)], m);
        assert AllMapped([(title, id)], m) <==> id in m by {
          assert [(title, id)][0].1 == id;
        }
      case Nested(sub) =>
        AllMappedAppend(Entries(init), Entries(sub), m);
        if GenKids(init, m, hasNode).Success? {
          var ks := GenKids(init, m, hasNode).value;
          KidsNonEmpty(init, m, hasNode);
          GenKidsSucceeds(sub, m, ks != []);
        }
    }
  }

  lemma {:induction false} LabelsAppend(a: seq<Tree>, b: seq<Tree>)
    ensures Labels(a + b) == Labels(a) + Labels(b)
  {
    assert forall i :: 0 <= i < |a + b| ==> Labels(a + b)[i] == (Labels(a) + Labels(b))[i];
  }

  lemma {:induction false} ExpectedAppend(a: seq<(string, int)>, b: seq<(string, int)>, m: map<int, nat>)
    requires AllMapped(a, m) && AllMapped(b, m)
    ensures AllMapped(a + b, m) && Expected(a + b, m) == Expected(a, m) + Expected(b, m)
  {
    AllMappedAppend(a, b, m);
    assert forall k :: 0 <= k < |a + b| ==> Expected(a + b, m)[k] == (Expected(a, m) + Expected(b, m))[k];
  }

  /** Once a prefix of the outline fails, the whole outline fails with the
      same exception: nothing after the failing item is looked at. */
  lemma {:induction false} GenKidsPrefixFails(items: seq<OutlineItem>, j: nat, m: map<int, nat>, hasNode: bool)
    requires j <= |items| && GenKids(items[..j], m, hasNode).Failure?
    ensures GenKids(items, m, hasNode) == GenKids(items[..j], m, hasNode)
    decreases |items| - j
  {
    if j < |items| {
      var init := items[..|items| - 1];
      assert init[..j] == items[..j];
      GenKidsPrefixFails(init, j, m, hasNode);
    } else {
      assert items[..j] == items;
    }
  }

  /** One more entry of the outline, in terms of the children built so far. */
  lemma {:induction false} GenKidsEntryStep(items: seq<OutlineItem>, i: nat, m: map<int, nat>, hasNode: bool)
    requires i < |items| && items[i].Entry? && GenKids(items[..i], m, hasNode).Success?
    ensures var ks := GenKids(items[..i], m, hasNode).value;
      var Entry(title, id) := items[i];
      GenKids(items[..i + 1], m, hasNode) ==
        if id !in m then Failure(KeyError(id))
        else if !hasNode then Failure(NoneHasNoAttribute)
        else Success(ks + [NewNode(title, m[id])])
  {
    assert items[..i + 1][..i] == items[..i];
    assert items[..i + 1][i] == items[i];
  }

  /** One more nested list of the outline, in terms of the children built so
      far. */
  lemma {:induction false} GenKidsNestedStep(items: seq<OutlineItem>, i: nat, m: map<int, nat>, hasNode: bool)
    requires i < |items| && items[i].Nested? && GenKids(items[..i], m, hasNode).Success?
    ensures var ks := GenKids(items[..i], m, hasNode).value;
      var sub := GenKids(items[i].items, m, ks != []);
      GenKids(items[..i + 1], m, hasNode) ==
        if sub.Failure? then Failure(sub.error)
        else if ks == [] then Success(ks)
        else Success(Graft(ks, sub.value))
  {
    assert items[..i + 1][..i] == items[..i];
    assert items[..i + 1][i] == items[i];
  }

  /** Without a node, a list that succeeds holds no entries at any depth. */
  lemma {:induction false} PlaceableWithoutNode(items: seq<OutlineItem>)
    requires Placeable(items, false)
    ensures Entries(items) == []
    decreases items
  {
    if items != [] {
      var init := items[..|items| - 1];
      PlaceableSnoc(items, false);
      PlaceableWithoutNode(init);
      match items[|items| - 1]
      case Entry(_, _) =>
      case Nested(sub) => PlaceableWithoutNode(sub);
    }
  }

  lemma {:induction false} AppendLeafLabels(ks: seq<Tree>, n: Tree)
    requires n.kids == []
    ensures Labels(NodesOfKids(ks + [n])) == Labels(NodesOfKids(ks)) + Labels([n])
  {
    NodesOfKidsAppend(ks, [n]);
    assert NodesOfKids([n]) == [n] by {
      assert [n][..0] == [];
    }
    LabelsAppend(NodesOfKids(ks), [n]);
  }

  lemma {:induction false} GraftParents(ks: seq<Tree>, sks: seq<Tree>)
    requires ks != [] && AllHaveParents(ks) && AllHaveParents(sks)
    ensures AllHaveParents(Graft(ks, sks))
  {
    var last := ks[|ks| - 1];
    var kids := last.kids + sks;
    assert HasParents(last);
    assert AllHaveParents(last.kids);
    forall i | 0 <= i < |kids| ensures HasParents(kids[i]) {
      if i >= |last.kids| {
        assert kids[i] == sks[i - |last.kids|];
      } else {
        assert kids[i] == last.kids[i];
      }
    }
    var last' := last.(kids := kids);
    assert HasParents(last');
    var g := Graft(ks, sks);
    forall i | 0 <= i < |g| ensures HasParents(g[i]) {
      if i < |ks| - 1 {
        assert g[i] == ks[i];
      }
    }
  }

  lemma {:induction false} GraftLabels(ks: seq<Tree>, sks: seq<Tree>)
    requires ks != []
    ensures Labels(NodesOfKids(Graft(ks, sks))) == Labels(NodesOfKids(ks)) + Labels(NodesOfKids(sks))
  {
    var front, last := ks[..|ks| - 1], ks[|ks| - 1];
    var g := Graft(ks, sks);
    var last' := g[|g| - 1];
    assert g[..|g| - 1] == front;
    KidsNodesSplit(ks);
    KidsNodesSplit(g);
    NodesOfKidsAppend(last.kids, sks);
    LabelsSwap(NodesOfKids(front), last, last', NodesOfKids(last.kids), NodesOfKids(sks));
  }

  /** The nodes below a list of children: those below all but the last
      child, then the last child and the nodes below it. */
  lemma {:induction false} KidsNodesSplit(ks: seq<Tree>)
    requires ks != []
    ensures NodesOfKids(ks)
         == NodesOfKids(ks[..|ks| - 1]) + ([ks[|ks| - 1]] + NodesOfKids(ks[|ks| - 1].kids))
  {
    var front, last := ks[..|ks| - 1], ks[|ks| - 1];
    assert ks == front + [last];
    NodesOfKidsAppend(front, [last]);
    assert NodesOfKids([last]) == Nodes(last) by { assert [last][..0] == []; }
  }

  /** Replacing one node by another with the same label, and appending
      Z after the nodes Y below it, appends the labels of Z. */
  lemma {:induction false} LabelsSwap(X: seq<Tree>, n: Tree, n': Tree, Y: seq<Tree>, Z: seq<Tree>)
    requires Label(n) == Label(n')
    ensures Labels(X + ([n'] + (Y + Z))) == Labels(X + ([n] + Y)) + Labels(Z)
  {
    var A, B := X + ([n'] + (Y + Z)), X + ([n] + Y) + Z;
    assert |A| == |B|;
    forall i | 0 <= i < |A| ensures Label(A[i]) == Label(B[i]) {
    }
    LabelsAppend(X + ([n] + Y), Z);
    assert Labels(A) == Labels(B);
  }

  lemma {:induction false} SingleEntry(title: string, id: int, m: map<int, nat>)
    requires id in m
    ensures AllMapped([(title, id)], m)
    ensures Expected([(title, id)], m) == [(title, m[id] + 1, false)]
    ensures Labels([NewNode(title, m[id])]) == [(title, m[id] + 1, false)]
  {
    assert [(title, id)][0].1 == id;
    assert [(title, id)][..0] == [];
    assert [NewNode(title, m[id])][..0] == [];
  }

  /** The children _generate_tree builds carry the outline's entries, in
      outline order and at any depth: each entry's title, page_number equal
      to the page's map value plus one, and a parent. */
  lemma {:induction false} GenKidsLabels(items: seq<OutlineItem>, m: map<int, nat>, hasNode: bool)
    requires GenKids(items, m, hasNode).Success?
    ensures AllMapped(Entries(items), m)
    ensures var ks := GenKids(items, m, hasNode).value;
      AllHaveParents(ks) && Labels(NodesOfKids(ks)) == Expected(Entries(items), m)
    decreases items
  {
    GenKidsSucceeds(items, m, hasNode);
    if items != [] {
      var init := items[..|items| - 1];
      var ks := GenKids(init, m, hasNode).value;
      GenKidsLabels(init, m, hasNode);
      var ks' := GenKids(items, m, hasNode).value;
      match items[|items| - 1]
      case Entry(title, id) =>
        var n := NewNode(title, m[id]);
        assert ks' == ks + [n];
        assert Entries(items) == Entries(init) + [(title, id)];
        SingleEntry(title, id, m);
        ExpectedAppend(Entries(init), [(title, id)], m);
        AppendLeafLabels(ks, n);
        assert AllHaveParents(ks') by {
          assert HasParents(n);
        }
      case Nested(sub) =>
        assert Entries(items) == Entries(init) + Entries(sub);
        GenKidsLabels(sub, m, ks != []);
        ExpectedAppend(Entries(init), Entries(sub), m);
        if ks == [] {
          GenKidsSucceeds(sub, m, false);
          PlaceableWithoutNode(sub);
          assert Entries(items) == Entries(init) + [];
        } else {
          GraftParents(ks, GenKids(sub, m, true).value);
          GraftLabels(ks, GenKids(sub, m, true).value);
        }
    }
  }

  lemma {:induction false} WithParentNoRoots(s: seq<Tree>)
    requires forall i :: 0 <= i < |s| ==> !s[i].isRoot
    ensures WithParent(s) == s
    decreases |s|
  {
    if s != [] {
      WithParentNoRoots(s[..|s| - 1]);
    }
  }

  lemma {:induction false} RootEmitsKids(t: Tree)
    requires t.isRoot
    requires forall i :: 0 <= i < |NodesOfKids(t.kids)| ==> !NodesOfKids(t.kids)[i].isRoot
    ensures ReproducesAll(Emit(t, 0, None), NodesOfKids(t.kids))
  {
    var ns := NodesOfKids(t.kids);
    WithParentNoRoots(ns);
    EmitIsPreorder(t, 0, None);
    WithParentAppend([t], ns);
    assert WithParent([t]) == [] by {
      assert [t][..0] == [];
    }
    assert Nodes(t) == [t] + ns;
  }

  /** load_from_pdf followed by add_to_pdf (from a root node): the writer
      receives one entry per outline entry, in outline order, with the
      entry's title and the index of its destination page, nested as the
      imported tree is. */
  lemma {:induction false} ImportThenExport(rootTitle: string, rootPage: int, items: seq<OutlineItem>, m: map<int, nat>)
    requires GenKids(items, m, true).Success?
    ensures AllMapped(Entries(items), m)
    ensures var ks := GenKids(items, m, true).value;
      var es := Entries(items);
      var log := Emit(Tree(rootTitle, rootPage, true, ks), 0, None);
      |log| == |es| &&
      (forall k :: 0 <= k < |log| ==> log[k].title == es[k].0 && log[k].pageIndex == m[es[k].1]) &&
      Decode(log) == ShapeKids(ks)
  {
    var ks := GenKids(items, m, true).value;
    var t := Tree(rootTitle, rootPage, true, ks);
    var es := Entries(items);
    GenKidsLabels(items, m, true);
    var ns := NodesOfKids(ks);
    var ls := Labels(ns);
    assert ls == Expected(es, m);
    forall i | 0 <= i < |ns| ensures !ns[i].isRoot {
      assert ls[i] == Label(ns[i]);
    }
    RootEmitsKids(t);
    var log := Emit(t, 0, None);
    forall k | 0 <= k < |log| ensures log[k].title == es[k].0 && log[k].pageIndex == m[es[k].1] {
      assert Reproduces(log[k], ns[k]);
      assert ls[k] == Label(ns[k]);
    }
    ExportDecodes(t);
  }
}

=== FILE: pagetree.dfy ===
/**
 * The page-ID map of BookmarkNode.load_from_pdf (_setup_page_id_to_num):
 * a depth-first walk of the PDF page tree that records, for every kid it
 * meets, how many leaf /Page objects came before it.
 */
module PageTree {

  /** An object of the PDF page tree as the walk sees it: its object number
      (`idnum`), its /Type, and for /Pages its /Kids in order. Any other
      /Type is `Other`. */
  datatype PageNode = Pages(id: int, kids: seq<PageNode>) | Page(id: int) | Other(id: int)

  /** The objects below t in the walk's order (pre-order, /Kids in order),
      t itself excluded. */
  function Flatten(t: PageNode): seq<PageNode>
    decreases t
  {
    match t
    case Pages(_, kids) => FlattenKids(kids)
    case Page(_) => []
    case Other(_) => []
  }

  function FlattenKids(ks: seq<PageNode>): seq<PageNode>
    decreases ks
  {
    if ks == [] then []
    else FlattenKids(ks[..|ks| - 1]) + [ks[|ks| - 1]] + Flatten(ks[|ks| - 1])
  }

  /** Number of leaf /Page objects in s. */
  function Leaves(s: seq<PageNode>): nat
  {
    if s == [] then 0 else Leaves(s[..|s| - 1]) + (if s[|s| - 1].Page? then 1 else 0)
  }

  /** The (object number, value) assignments the walk makes, in order: each
      object below the top one gets the number of leaves before it, counting
      from `count`. */
  function Pairs(F: seq<PageNode>, count: nat): (ps: seq<(int, nat)>)
    ensures |ps| == |F|
  {
    if F == [] then [] else Pairs(F[..|F| - 1], count) + [(F[|F| - 1].id, count + Leaves(F[..|F| - 1]))]
  }

  lemma {:induction false} PairsAt(F: seq<PageNode>, count: nat, j: nat)
    requires j < |F|
    ensures Pairs(F, count)[j] == (F[j].id, count + Leaves(F[..j]))
    decreases |F|
  {
    if j < |F| - 1 {
      PairsAt(F[..|F| - 1], count, j);
      assert F[..|F| - 1][..j] == F[..j];
    }
  }

  /** Python dict assignment in order: a later assignment to a key wins. */
  function Fold(m: map<int, nat>, ps: seq<(int, nat)>): map<int, nat>
  {
    if ps == [] then m else Fold(m, ps[..|ps| - 1])[ps[|ps| - 1].0 := ps[|ps| - 1].1]
  }

  /** The map _setup_page_id_to_num returns for the top /Pages object. */
  function PageIdMap(root: PageNode): map<int, nat>
  {
    Fold(map[], Pairs(Flatten(root), 0))
  }

  /** _setup_page_id_to_num(pdf): start the walk at the top page-tree object
      with an empty map and a zero count. */
  method SetupPageIdToNum(root: PageNode) returns (result: map<int, nat>)
    ensures result == PageIdMap(root)
  {
    var count;
    result, count := Walk(root, map[], 0);
  }

  /** _setup_page_id_to_num(pdf, pages, _result, _num_pages): the shared dict
      and leaf counter are threaded through as in and out values. */
  method Walk(pages: PageNode, result0: map<int, nat>, count0: nat) returns (result: map<int, nat>, count: nat)
    ensures count == count0 + Leaves([pages] + Flatten(pages))
    ensures result == Fold(result0, Pairs(Flatten(pages), count0))
    decreases pages
  {
    result, count := result0, count0;
    match pages
    case Pages(_, kids) =>
      for i := 0 to |kids|
        invariant count == count0 + Leaves(FlattenKids(kids[..i]))
        invariant result == Fold(result0, Pairs(FlattenKids(kids[..i]), count0))
      {
        var kid := kids[i];
        ghost var prior, start := result, count;
        result := result[kid.id := count];
        result, count := Walk(kid, result, count);
        WalkStep(result0, count0, kids, i, prior, start, result, count);
      }
      assert kids[..|kids|] == kids;
      LeavesOfSelf(pages);
    case Page(_) =>
      count := count + 1;
      LeavesOfSelf(pages);
    case Other(_) =>
      LeavesOfSelf(pages);
  }

  /** The leaves of an object and of everything below it. */
  lemma {:induction false} LeavesOfSelf(t: PageNode)
    ensures Leaves([t] + Flatten(t)) == (if t.Page? then 1 else 0) + Leaves(Flatten(t))
  {
    LeavesAppend([t], Flatten(t));
    assert [t][..0] == [];
  }

  /** One turn of the loop over /Kids, on the counter and on the map:
      assigning the kid and walking below it extends the walk by the kid
      and its subtree. */
  lemma {:induction false} WalkStep(result0: map<int, nat>, count0: nat, kids: seq<PageNode>, i: nat,
                 prior: map<int, nat>, start: nat, result: map<int, nat>, count: nat)
    requires i < |kids|
    requires prior == Fold(result0, Pairs(FlattenKids(kids[..i]), count0))
    requires start == count0 + Leaves(FlattenKids(kids[..i]))
    requires result == Fold(prior[kids[i].id := start], Pairs(Flatten(kids[i]), start))
    requires count == start + Leaves([kids[i]] + Flatten(kids[i]))
    ensures count == count0 + Leaves(FlattenKids(kids[..i + 1]))
    ensures result == Fold(result0, Pairs(FlattenKids(kids[..i + 1]), count0))
  {
    StepFlatten(kids, i);
    StepLeaves(FlattenKids(kids[..i]), kids[i]);
    StepMap(result0, count0, FlattenKids(kids[..i]), kids[i], FlattenKids(kids[..i + 1]), prior, start, result);
  }

  lemma {:induction false} StepMap(result0: map<int, nat>, count0: nat, before: seq<PageNode>, kid: PageNode, after: seq<PageNode>,
                prior: map<int, nat>, start: nat, result: map<int, nat>)
    requires after == before + [kid] + Flatten(kid)
    requires prior == Fold(result0, Pairs(before, count0))
    requires start == count0 + Leaves(before)
    requires result == Fold(prior[kid.id := start], Pairs(Flatten(kid), start))
    ensures result == Fold(result0, Pairs(after, count0))
  {
    PairsStep(before, kid, count0);
    FoldStep(result0, Pairs(before, count0), (kid.id, start), Pairs(Flatten(kid), start));
  }

  lemma {:induction false} StepFlatten(kids: seq<PageNode>, i: nat)
    requires i < |kids|
    ensures FlattenKids(kids[..i + 1]) == FlattenKids(kids[..i]) + [kids[i]] + Flatten(kids[i])
  {
    assert kids[..i + 1][..i] == kids[..i];
  }

  lemma {:induction false} StepLeaves(before: seq<PageNode>, kid: PageNode)
    ensures Leaves(before + [kid] + Flatten(kid)) == Leaves(before) + Leaves([kid] + Flatten(kid))
  {
    LeavesAppend(before + [kid], Flatten(kid));
    LeavesAppend(before, [kid]);
    LeavesAppend([kid], Flatten(kid));
  }

  /** The assignments of one turn of the loop over /Kids: the kid, then
      everything below it, numbered from the leaves seen before the kid. */
  lemma {:induction false} PairsStep(before: seq<PageNode>, kid: PageNode, count0: nat)
    ensures var c := count0 + Leaves(before);
      Pairs(before + [kid] + Flatten(kid), count0) == Pairs(before, count0) + [(kid.id, c)] + Pairs(Flatten(kid), c)
  {
    var c := count0 + Leaves(before);
    PairsAppend(before, [kid], count0);
    PairsAppend(before + [kid], Flatten(kid), count0);
    LeavesAppend(before, [kid]);
    assert Pairs([kid], c) == [(kid.id, c)] by {
      assert [kid][..0] == [];
    }
    if kid.Page? {
      assert Flatten(kid) == [];
    } else {
      assert Leaves([kid]) == 0 by {
        assert [kid][..0] == [];
      }
    }
  }

  lemma {:induction false} FoldStep(m: map<int, nat>, ps: seq<(int, nat)>, p: (int, nat), qs: seq<(int, nat)>)
    ensures Fold(m, ps + [p] + qs) == Fold(Fold(m, ps)[p.0 := p.1], qs)
  {
    FoldAppend(m, ps + [p], qs);
    FoldAppend(m, ps, [p]);
    assert [p][..0] == [];
  }

  lemma {:induction false} LeavesAppend(a: seq<PageNode>, b: seq<PageNode>)
    ensures Leaves(a + b) == Leaves(a) + Leaves(b)
    decreases |b|
  {
    if b == [] {
      assert a + b == a;
    } else {
      assert (a + b)[..|a + b| - 1] == a + b[..|b| - 1];
      LeavesAppend(a, b[..|b| - 1]);
    }
  }

  lemma {:induction false} PairsAppend(a: seq<PageNode>, b: seq<PageNode>, count: nat)
    ensures Pairs(a + b, count) == Pairs(a, count) + Pairs(b, count + Leaves(a))
    decreases |b|
  {
    if b == [] {
      assert a + b == a;
    } else {
      var b' := b[..|b| - 1];
      assert (a + b)[..|a + b| - 1] == a + b';
      PairsAppend(a, b', count);
      LeavesAppend(a, b');
    }
  }

  lemma {:induction false} FoldAppend(m: map<int, nat>, a: seq<(int, nat)>, b: seq<(int, nat)>)
    ensures Fold(m, a + b) == Fold(Fold(m, a), b)
    decreases |b|
  {
    if b == [] {
      assert a + b == a;
    } else {
      assert (a + b)[..|a + b| - 1] == a + b[..|b| - 1];
      FoldAppend(m, a, b[..|b| - 1]);
    }
  }

  // ---------------------------------------------------------------------
  // What the map says
  // ---------------------------------------------------------------------

  /** No two objects in s share an object number. */
  predicate DistinctIds(s: seq<PageNode>) {
    forall a, b :: 0 <= a < b < |s| ==> s[a].id != s[b].id
  }

  lemma {:induction false} FoldKeys(m: map<int, nat>, ps: seq<(int, nat)>)
    ensures Fold(m, ps).Keys == m.Keys + set p | p in ps :: p.0
    decreases |ps|
  {
    if ps != [] {
      var init := ps[..|ps| - 1];
      FoldKeys(m, init);
      assert ps == init + [ps[|ps| - 1]];
      assert (set p | p in ps :: p.0) == (set p | p in init :: p.0) + {ps[|ps| - 1].0};
    }
  }

  lemma {:induction false} FoldDistinct(m: map<int, nat>, ps: seq<(int, nat)>, j: nat)
    requires j < |ps|
    requires forall a, b :: 0 <= a < b < |ps| ==> ps[a].0 != ps[b].0
    ensures ps[j].0 in Fold(m, ps) && Fold(m, ps)[ps[j].0] == ps[j].1
    decreases |ps|
  {
    if j < |ps| - 1 {
      FoldDistinct(m, ps[..|ps| - 1], j);
    }
  }

  /** The keys of the map are the object numbers of the objects below the
      top one; in particular the top /Pages object is a key only when an
      object below it has the same number. */
  lemma {:induction false} PageIdMapKeys(root: PageNode)
    ensures PageIdMap(root).Keys == set x | x in Flatten(root) :: x.id
  {
    var F := Flatten(root);
    var ps := Pairs(F, 0);
    FoldKeys(map[], ps);
    forall p | p in ps ensures p.0 in set x | x in F :: x.id {
      var j :| 0 <= j < |ps| && ps[j] == p;
      PairsAt(F, 0, j);
    }
    forall x | x in F ensures x.id in set p | p in ps :: p.0 {
      var j :| 0 <= j < |F| && F[j] == x;
      PairsAt(F, 0, j);
      assert ps[j] in ps;
    }
  }

  /** With distinct object numbers, every object below the top one maps to
      the number of leaf pages that come before it in the walk. */
  lemma {:induction false} PageIdMapValue(root: PageNode, j: nat)
    requires DistinctIds(Flatten(root)) && j < |Flatten(root)|
    ensures var F := Flatten(root);
      F[j].id in PageIdMap(root) && PageIdMap(root)[F[j].id] == Leaves(F[..j])
  {
    var F := Flatten(root);
    var ps := Pairs(F, 0);
    forall a, b | 0 <= a < b < |ps| ensures ps[a].0 != ps[b].0 {
      PairsAt(F, 0, a);
      PairsAt(F, 0, b);
    }
    FoldDistinct(map[], ps, j);
    PairsAt(F, 0, j);
  }

  lemma {:induction false} LeavesPrefixGrows(F: seq<PageNode>, a: nat, b: nat)
    requires a < b <= |F| && F[a].Page?
    ensures Leaves(F[..a]) < Leaves(F[..b])
  {
    assert F[..b] == F[..a] + [F[a]] + F[a + 1..b];
    LeavesAppend(F[..a] + [F[a]], F[a + 1..b]);
    LeavesAppend(F[..a], [F[a]]);
    assert [F[a]][..0] == [];
  }

  /** Some leaf has exactly k leaves before it, for every k below the total. */
  lemma {:induction false} LeafWithIndex(F: seq<PageNode>, k: nat)
    requires k < Leaves(F)
    ensures exists j :: 0 <= j < |F| && F[j].Page? && Leaves(F[..j]) == k
    decreases |F|
  {
    var init := F[..|F| - 1];
    assert F[..|F| - 1] == init;
    if k < Leaves(init) {
      LeafWithIndex(init, k);
      var j :| 0 <= j < |init| && init[j].Page? && Leaves(init[..j]) == k;
      assert init[..j] == F[..j];
    } else {
      assert F[|F| - 1].Page? && Leaves(F[..|F| - 1]) == k;
    }
  }

  /** Leaf pages are numbered 0, 1, ..., n-1 in walk order, n being the
      number of leaf pages: distinct, increasing, and none skipped. */
  lemma {:induction false} LeafPagesNumbered(root: PageNode)
    requires DistinctIds(Flatten(root))
    ensures var F := Flatten(root); var m := PageIdMap(root);
      (forall j :: 0 <= j < |F| && F[j].Page? ==> F[j].id in m && m[F[j].id] < Leaves(F)) &&
      (forall a, b :: 0 <= a < b < |F| && F[a].Page? && F[b].Page? ==>
         F[a].id in m && F[b].id in m && m[F[a].id] < m[F[b].id])
  {
    var F := Flatten(root);
    var m := PageIdMap(root);
    forall j | 0 <= j < |F| && F[j].Page? ensures F[j].id in m && m[F[j].id] < Leaves(F) {
      PageIdMapValue(root, j);
      LeavesPrefixGrows(F, j, |F|);
      assert F[..|F|] == F;
    }
    forall a, b | 0 <= a < b < |F| && F[a].Page? && F[b].Page?
      ensures F[a].id in m && F[b].id in m && m[F[a].id] < m[F[b].id]
    {
      PageIdMapValue(root, a);
      PageIdMapValue(root, b);
      LeavesPrefixGrows(F, a, b);
    }
  }

  /** No number below the leaf count is skipped: some leaf page maps to it. */
  lemma {:induction false} LeafNumberUsed(root: PageNode, k: nat)
    requires DistinctIds(Flatten(root)) && k < Leaves(Flatten(root))
    ensures var F := Flatten(root); var m := PageIdMap(root);
      exists j :: 0 <= j < |F| && F[j].Page? && F[j].id in m && m[F[j].id] == k
  {
    var F := Flatten(root);
    LeafWithIndex(F, k);
    var j :| 0 <= j < |F| && F[j].Page? && Leaves(F[..j]) == k;
    PageIdMapValue(root, j);
  }

  /** In the walk order, the object at position j is directly followed by
      everything below it. */
  predicate ContiguousAt(F: seq<PageNode>, j: nat)
    requires j < |F|
  {
    j + 1 + |Flatten(F[j])| <= |F| && F[j + 1..j + 1 + |Flatten(F[j])|] == Flatten(F[j])
  }

  predicate Contiguous(F: seq<PageNode>) {
    forall j :: 0 <= j < |F| ==> ContiguousAt(F, j)
  }

  lemma {:induction false} ContiguousFlatten(t: PageNode)
    ensures Contiguous(Flatten(t))
    decreases t, 1
  {
    if t.Pages? {
      ContiguousKids(t.kids);
    }
  }

  lemma {:induction false} ContiguousKids(ks: seq<PageNode>)
    ensures Contiguous(FlattenKids(ks))
    decreases ks, 0
  {
    if ks != [] {
      var init := ks[..|ks| - 1];
      var last := ks[|ks| - 1];
      var A := FlattenKids(init);
      var B := Flatten(last);
      var F := FlattenKids(ks);
      assert F == A + ([last] + B) == (A + [last]) + B;
      ContiguousKids(init);
      ContiguousFlatten(last);
      forall j | 0 <= j < |F| ensures ContiguousAt(F, j) {
        if j < |A| {
          ContiguousBefore(A, [last] + B, j);
        } else if j == |A| {
          assert F[j + 1..j + 1 + |B|] == B;
        } else {
          ContiguousAfter(A + [last], B, j - |A| - 1);
        }
      }
    }
  }

  lemma {:induction false} ContiguousBefore(A: seq<PageNode>, R: seq<PageNode>, j: nat)
    requires j < |A| && ContiguousAt(A, j)
    ensures ContiguousAt(A + R, j)
  {
    var n := |Flatten(A[j])|;
    assert (A + R)[j] == A[j];
    assert (A + R)[j + 1..j + 1 + n] == A[j + 1..j + 1 + n];
  }

  lemma {:induction false} ContiguousAfter(P: seq<PageNode>, B: seq<PageNode>, q: nat)
    requires q < |B| && ContiguousAt(B, q)
    ensures ContiguousAt(P + B, |P| + q)
  {
    var n := |Flatten(B[q])|;
    assert (P + B)[|P| + q] == B[q];
    assert (P + B)[|P| + q + 1..|P| + q + 1 + n] == B[q + 1..q + 1 + n];
  }

  /** The objects below the j-th object of the walk come right after it. */
  lemma {:induction false} SubtreeFollows(root: PageNode, j: nat)
    requires j < |Flatten(root)|
    ensures var F := Flatten(root);
      j + 1 + |Flatten(F[j])| <= |F| && F[j + 1..j + 1 + |Flatten(F[j])|] == Flatten(F[j])
  {
    ContiguousFlatten(root);
    assert ContiguousAt(Flatten(root), j);
  }

  lemma {:induction false} FirstLeaf(G: seq<PageNode>)
    requires Leaves(G) > 0
    ensures exists r :: 0 <= r < |G| && G[r].Page? && forall q :: 0 <= q < r ==> !G[q].Page?
    decreases |G|
  {
    var init := G[..|G| - 1];
    if Leaves(init) > 0 {
      FirstLeaf(init);
      var r :| 0 <= r < |init| && init[r].Page? && forall q :: 0 <= q < r ==> !init[q].Page?;
      assert forall q :: 0 <= q < r ==> G[q] == init[q];
    } else {
      NoLeaves(init);
    }
  }

  lemma {:induction false} NoLeaves(G: seq<PageNode>)
    ensures Leaves(G) == 0 <==> forall q :: 0 <= q < |G| ==> !G[q].Page?
    decreases |G|
  {
    if G != [] {
      var init := G[..|G| - 1];
      NoLeaves(init);
      assert forall q :: 0 <= q < |init| ==> G[q] == init[q];
    }
  }

  /** An intermediate /Pages kid maps to the index of the first leaf page
      below it, when there is one. */
  lemma {:induction false} PagesKidMapsToFirstLeaf(root: PageNode, j: nat)
    requires DistinctIds(Flatten(root)) && j < |Flatten(root)|
    requires Flatten(root)[j].Pages? && Leaves(Flatten(Flatten(root)[j])) > 0
    ensures var F := Flatten(root); var m := PageIdMap(root);
      exists r :: j < r < |F| && F[r].Page? && (forall q :: j < q < r ==> !F[q].Page?) &&
        F[j].id in m && F[r].id in m && m[F[r].id] == m[F[j].id]
  {
    var F := Flatten(root);
    SubtreeFollows(root, j);
    var r := FirstLeafBelow(F, j);
    PageIdMapValue(root, j);
    PageIdMapValue(root, r);
  }

  /** The first leaf page below the /Pages object at position j: no leaf
      page lies between the two, so they have the same leaves before them. */
  lemma {:induction false} FirstLeafBelow(F: seq<PageNode>, j: nat) returns (r: nat)
    requires j < |F| && F[j].Pages? && ContiguousAt(F, j)
    requires Leaves(Flatten(F[j])) > 0
    ensures j < r < |F| && F[r].Page? && (forall q :: j < q < r ==> !F[q].Page?)
    ensures Leaves(F[..r]) == Leaves(F[..j])
  {
    var G := Flatten(F[j]);
    FirstLeaf(G);
    var r0 :| 0 <= r0 < |G| && G[r0].Page? && forall q :: 0 <= q < r0 ==> !G[q].Page?;
    r := j + 1 + r0;
    LeavesBeforeFirstLeaf(F, j, r0);
    assert F[r] == G[r0];
    forall q | j < q < r ensures !F[q].Page? {
      assert F[q] == G[q - j - 1];
    }
  }

  lemma {:induction false} LeavesBeforeFirstLeaf(F: seq<PageNode>, j: nat, r0: nat)
    requires j < |F| && F[j].Pages? && ContiguousAt(F, j)
    requires r0 < |Flatten(F[j])| && forall q :: 0 <= q < r0 ==> !Flatten(F[j])[q].Page?
    ensures Leaves(F[..j + 1 + r0]) == Leaves(F[..j])
  {
    var G := Flatten(F[j]);
    NoLeaves(G[..r0]);
    assert F[..j + 1 + r0] == F[..j] + [F[j]] + G[..r0];
    LeavesAppend(F[..j] + [F[j]], G[..r0]);
    LeavesAppend(F[..j], [F[j]]);
    assert Leaves([F[j]]) == 0 by {
      assert [F[j]][..0] == [];
    }
  }
}

=== FILE: pylists.dfy ===
/**
 * Python list operations used by the bookmark tree, with their exact
 * semantics: `index` and `remove` look for the first element equal to the
 * argument (for BookmarkNode, which defines no __eq__, that is identity),
 * `pop(i)` deletes position i, and `insert(i, x)` clamps i into range the
 * way CPython does (a negative i counts from the end).
 */
module PyLists {

  /** Position of the first occurrence of x in s (list.index). */
  function IndexOf<T(==)>(s: seq<T>, x: T): (i: nat)
    requires x in s
    ensures i < |s| && s[i] == x
    ensures forall j :: 0 <= j < i ==> s[j] != x
  {
    if s[0] == x then 0 else 1 + IndexOf(s[1..], x)
  }

  /** s without its element at position i (list.pop(i), result discarded). */
  function RemoveAt<T>(s: seq<T>, i: nat): (r: seq<T>)
    requires i < |s|
    ensures |r| == |s| - 1
    ensures forall j :: 0 <= j < i ==> r[j] == s[j]
    ensures forall j :: i <= j < |r| ==> r[j] == s[j + 1]
  {
    s[..i] + s[i + 1..]
  }

  /** list.remove(x): delete the first occurrence of x. */
  function RemoveFirst<T(==)>(s: seq<T>, x: T): (r: seq<T>)
    requires x in s
    ensures |r| == |s| - 1
    ensures multiset(r) == multiset(s) - multiset{x}
  {
    RemoveAtMultiset(s, IndexOf(s, x));
    RemoveAt(s, IndexOf(s, x))
  }

  /** list.insert converts its index to a C `Py_ssize_t` (64 bits wide
      here) and raises OverflowError for an int outside that range. */
  const SsizeMin: int := -0x8000_0000_0000_0000
  const SsizeMax: int := 0x7FFF_FFFF_FFFF_FFFF

  predicate IsSsize(i: int)
  {
    SsizeMin <= i <= SsizeMax
  }

  /** The position list.insert(i, x) uses on a list of length n. */
  function InsertPosition(n: nat, i: int): (k: nat)
    ensures k <= n
    ensures 0 <= i <= n ==> k == i
    ensures i < 0 && 0 <= n + i ==> k == n + i
    ensures n + i < 0 ==> k == 0
    ensures n < i ==> k == n
  {
    if i < 0 then (if n + i < 0 then 0 else n + i)
    else if i > n then n
    else i
  }

  /** list.insert(i, x): x lands at the clamped position, and taking it out
      there gives back the list. */
  function Insert<T>(s: seq<T>, i: int, x: T): (r: seq<T>)
    ensures |r| == |s| + 1
    ensures r[InsertPosition(|s|, i)] == x
    ensures RemoveAt(r, InsertPosition(|s|, i)) == s
    ensures multiset(r) == multiset(s) + multiset{x}
  {
    var k := InsertPosition(|s|, i);
    assert s == s[..k] + s[k..];
    var r := s[..k] + [x] + s[k..];
    assert r[..k] == s[..k] && r[k + 1..] == s[k..];
    r
  }

  /** Number of occurrences of x in s. */
  function Count<T(==)>(s: seq<T>, x: T): nat
  {
    multiset(s)[x]
  }

  /** list.remove deletes exactly one occurrence, the first one, and keeps
      the order of everything else. */
  lemma {:induction false} RemoveFirstSpec<T>(s: seq<T>, x: T)
    requires x in s
    ensures var i := IndexOf(s, x);
      RemoveFirst(s, x) == s[..i] + s[i + 1..] && x !in s[..i]
    ensures multiset(RemoveFirst(s, x)) == multiset(s) - multiset{x}
    ensures Count(RemoveFirst(s, x), x) == Count(s, x) - 1
  {
    var i := IndexOf(s, x);
    assert s == s[..i] + [x] + s[i + 1..];
    assert x !in s[..i] by {
      forall j | 0 <= j < i ensures s[..i][j] != x { }
    }
  }

  /** Appending x and then removing x's first occurrence: if x was already
      present the old occurrence goes and x ends up last. */
  lemma {:induction false} RemoveFirstAfterAppend<T>(s: seq<T>, x: T)
    requires x in s
    ensures RemoveFirst(s + [x], x) == RemoveFirst(s, x) + [x]
  {
    var i := IndexOf(s, x);
    IndexOfPrefix(s, [x], x);
    assert (s + [x])[i + 1..] == s[i + 1..] + [x];
  }

  /** The first occurrence in a + b is the one in a when x is in a. */
  lemma {:induction false} IndexOfPrefix<T>(a: seq<T>, b: seq<T>, x: T)
    requires x in a
    ensures IndexOf(a + b, x) == IndexOf(a, x)
  {
    if a[0] != x {
      assert (a + b)[1..] == a[1..] + b;
      IndexOfPrefix(a[1..], b, x);
    }
  }

  /** When x occurs exactly once, list.remove leaves none. */
  lemma {:induction false} RemoveOnlyOccurrence<T>(s: seq<T>, x: T)
    requires Count(s, x) == 1
    ensures x in s && x !in RemoveFirst(s, x)
  {
    assert x in multiset(s);
    RemoveFirstSpec(s, x);
    assert x !in multiset(RemoveFirst(s, x));
  }

  /** `s.insert(i, s.pop(s.index(x)))`: take x out of its first position and
      put it back at position i. */
  function MoveItem<T(==)>(s: seq<T>, x: T, i: int): (r: seq<T>)
    requires x in s
    ensures |r| == |s|
    ensures multiset(r) == multiset(s)
  {
    RemoveAtMultiset(s, IndexOf(s, x));
    Insert(RemoveAt(s, IndexOf(s, x)), i, x)
  }

  /** A list whose multiset of elements is contained in another's holds
      only elements of that other list. */
  lemma MultisetMembers<T>(a: seq<T>, b: seq<T>)
    requires multiset(a) <= multiset(b)
    ensures forall y :: y in a ==> y in b
  {
    forall y | y in a ensures y in b {
      assert y in multiset(a);
    }
  }

  /** x lands at the clamped position (exactly at i for an index in range)
      and the other elements keep their order. */
  lemma {:induction false} MoveItemLands<T>(s: seq<T>, x: T, i: int)
    requires x in s
    ensures MoveItem(s, x, i)[InsertPosition(|s| - 1, i)] == x
    ensures RemoveAt(MoveItem(s, x, i), InsertPosition(|s| - 1, i)) == RemoveAt(s, IndexOf(s, x))
    ensures 0 <= i < |s| ==> MoveItem(s, x, i)[i] == x
  {
    var rest := RemoveAt(s, IndexOf(s, x));
    var k := InsertPosition(|rest|, i);
    assert MoveItem(s, x, i) == Insert(rest, i, x);
    assert k == InsertPosition(|s| - 1, i);
  }

  lemma {:induction false} RemoveAtMultiset<T>(s: seq<T>, j: nat)
    requires j < |s|
    ensures multiset(s) == multiset(RemoveAt(s, j)) + multiset{s[j]}
  {
    assert s == s[..j] + [s[j]] + s[j + 1..];
  }
}

=== FILE: trees.dfy ===
/**
 * Value view of a bookmark tree and the two pre-order walks over it:
 * the export walk of BookmarkNode.add_to_pdf (one outline entry per node
 * that has a parent, handles being positions in the writer's log) and the
 * listing of BookmarkNode.print_tree.
 */
module Trees {
  import opened Wrappers
  import opened Formatting

  /** A BookmarkNode and everything below it, as a value. `isRoot` records
      that the node's `parent` is None. */
  datatype Tree = Tree(title: string, pageNumber: int, isRoot: bool, kids: seq<Tree>)

  /** One addBookmark(title, pagenum, parent) call on the PDF writer. The
      handle it returns is the entry's position in the writer's log. */
  datatype OutlineEntry = OutlineEntry(title: string, pageIndex: int, parent: Option<nat>)

  // ---------------------------------------------------------------------
  // Export: _add_bookmark
  // ---------------------------------------------------------------------

  /** Entries written by _add_bookmark(t, writer, parent) when the writer's
      log already holds `base` entries. A node without a parent writes
      nothing and hands None to its children. */
  function Emit(t: Tree, base: nat, parent: Option<nat>): seq<OutlineEntry>
    decreases t
  {
    if t.isRoot then EmitKids(t.kids, base, None)
    else [OutlineEntry(t.title, t.pageNumber - 1, parent)] + EmitKids(t.kids, base + 1, Some(base))
  }

  /** Entries written by the loop over the children, in list order. */
  function EmitKids(ts: seq<Tree>, base: nat, parent: Option<nat>): seq<OutlineEntry>
    decreases ts
  {
    if ts == [] then []
    else
      var front := EmitKids(ts[..|ts| - 1], base, parent);
      front + Emit(ts[|ts| - 1], base + |front|, parent)
  }

  lemma {:induction false} EmitKidsLast(ts: seq<Tree>, t: Tree, base: nat, parent: Option<nat>)
    ensures EmitKids(ts + [t], base, parent)
         == EmitKids(ts, base, parent) + Emit(t, base + |EmitKids(ts, base, parent)|, parent)
  {
    var s := ts + [t];
    assert s[..|s| - 1] == ts;
    assert s[|s| - 1] == t;
  }

  /** Child i exported after the children before it. */
  lemma {:induction false} EmitKidsSnoc(head: seq<OutlineEntry>, before: seq<OutlineEntry>, after: seq<OutlineEntry>,
                     ts: seq<Tree>, i: nat, parent: Option<nat>)
    requires i < |ts|
    requires before == head + EmitKids(ts[..i], |head|, parent)
    requires after == before + Emit(ts[i], |before|, parent)
    ensures after == head + EmitKids(ts[..i + 1], |head|, parent)
  {
    var K := EmitKids(ts[..i], |head|, parent);
    assert ts[..i + 1] == ts[..i] + [ts[i]];
    EmitKidsLast(ts[..i], ts[i], |head|, parent);
    AppendAssoc(head, K, Emit(ts[i], |head| + |K|, parent));
  }

  /** Every node of t in pre-order, children in list order. */
  function Nodes(t: Tree): (s: seq<Tree>)
    decreases t
    ensures |s| > 0 && s[0] == t
  {
    [t] + NodesOfKids(t.kids)
  }

  function NodesOfKids(ts: seq<Tree>): seq<Tree>
    decreases ts
  {
    if ts == [] then [] else NodesOfKids(ts[..|ts| - 1]) + Nodes(ts[|ts| - 1])
  }

  lemma {:induction false} NodesOfKidsAppend(a: seq<Tree>, b: seq<Tree>)
    ensures NodesOfKids(a + b) == NodesOfKids(a) + NodesOfKids(b)
    decreases |b|
  {
    if b == [] {
      assert a + b == a;
    } else {
      assert (a + b)[..|a + b| - 1] == a + b[..|b| - 1];
      NodesOfKidsAppend(a, b[..|b| - 1]);
    }
  }

  /** The nodes that have a parent, in the order given. */
  function WithParent(s: seq<Tree>): seq<Tree>
  {
    if s == [] then [] else WithParent(s[..|s| - 1]) + (if s[|s| - 1].isRoot then [] else [s[|s| - 1]])
  }

  lemma {:induction false} WithParentAppend(a: seq<Tree>, b: seq<Tree>)
    ensures WithParent(a + b) == WithParent(a) + WithParent(b)
    decreases |b|
  {
    if b != [] {
      assert (a + b)[..|a + b| - 1] == a + b[..|b| - 1];
      WithParentAppend(a, b[..|b| - 1]);
    } else {
      assert a + b == a;
    }
  }

  /** An entry reproduces a node: same title, page index one below the
      node's 1-based page number. */
  predicate Reproduces(e: OutlineEntry, n: Tree) {
    e.title == n.title && e.pageIndex == n.pageNumber - 1
  }

  predicate ReproducesAll(es: seq<OutlineEntry>, ns: seq<Tree>) {
    |es| == |ns| && forall k :: 0 <= k < |es| ==> Reproduces(es[k], ns[k])
  }

  lemma {:induction false} ReproducesAppend(e1: seq<OutlineEntry>, n1: seq<Tree>, e2: seq<OutlineEntry>, n2: seq<Tree>)
    requires ReproducesAll(e1, n1) && ReproducesAll(e2, n2)
    ensures ReproducesAll(e1 + e2, n1 + n2)
  {
    forall k | 0 <= k < |e1 + e2| ensures Reproduces((e1 + e2)[k], (n1 + n2)[k]) {
      if k >= |e1| {
        assert (e1 + e2)[k] == e2[k - |e1|];
      }
    }
  }

  /** add_to_pdf writes exactly one entry per node whose parent is not None,
      in pre-order with children in list order, with page index
      page_number - 1. */
  lemma {:induction false} EmitIsPreorder(t: Tree, base: nat, parent: Option<nat>)
    ensures ReproducesAll(Emit(t, base, parent), WithParent(Nodes(t)))
    decreases t, 1
  {
    var below := NodesOfKids(t.kids);
    assert WithParent(Nodes(t)) == (if t.isRoot then [] else [t]) + WithParent(below) by {
      WithParentAppend([t], below);
      assert [t][..0] == [];
    }
    if t.isRoot {
      EmitKidsIsPreorder(t.kids, base, None);
    } else {
      EmitKidsIsPreorder(t.kids, base + 1, Some(base));
      ReproducesCons(OutlineEntry(t.title, t.pageNumber - 1, parent), t,
        EmitKids(t.kids, base + 1, Some(base)), WithParent(below));
    }
  }

  lemma {:induction false} ReproducesCons(e: OutlineEntry, n: Tree, es: seq<OutlineEntry>, ns: seq<Tree>)
    requires Reproduces(e, n) && ReproducesAll(es, ns)
    ensures ReproducesAll([e] + es, [n] + ns)
  {
    ReproducesAppend([e], [n], es, ns);
  }

  lemma {:induction false} EmitKidsIsPreorder(ts: seq<Tree>, base: nat, parent: Option<nat>)
    ensures ReproducesAll(EmitKids(ts, base, parent), WithParent(NodesOfKids(ts)))
    decreases ts, 0
  {
    if ts != [] {
      var init := ts[..|ts| - 1];
      var front := EmitKids(init, base, parent);
      EmitKidsIsPreorder(init, base, parent);
      EmitIsPreorder(ts[|ts| - 1], base + |front|, parent);
      WithParentAppend(NodesOfKids(init), Nodes(ts[|ts| - 1]));
      ReproducesAppend(front, WithParent(NodesOfKids(init)),
        Emit(ts[|ts| - 1], base + |front|, parent), WithParent(Nodes(ts[|ts| - 1])));
    }
  }

  // ---------------------------------------------------------------------
  // Reading the writer's log back as an outline
  // ---------------------------------------------------------------------

  /** An outline item as the PDF holds it: title, 0-based page index and
      the items nested under it. */
  datatype Bookmark = Bookmark(title: string, pageIndex: int, kids: seq<Bookmark>)

  /** The outline item a tree node should become. */
  function Shape(t: Tree): Bookmark
    decreases t
  {
    Bookmark(t.title, t.pageNumber - 1, ShapeKids(t.kids))
  }

  function ShapeKids(ts: seq<Tree>): (r: seq<Bookmark>)
    decreases ts
    ensures |r| == |ts|
  {
    if ts == [] then [] else ShapeKids(ts[..|ts| - 1]) + [Shape(ts[|ts| - 1])]
  }

  /** Every node of t has a parent (t is below the root of a well-linked
      tree). */
  predicate HasParents(t: Tree)
    decreases t
  {
    !t.isRoot && AllHaveParents(t.kids)
  }

  predicate AllHaveParents(ts: seq<Tree>)
    decreases ts
  {
    forall i {:trigger HasParents(ts[i])} :: 0 <= i < |ts| ==> HasParents(ts[i])
  }

  /** Positions in [lo, hi) of the log whose parent handle is h, in
      order. */
  function Scan(log: seq<OutlineEntry>, h: Option<nat>, lo: nat, hi: nat): (r: seq<nat>)
    requires lo <= hi <= |log|
    decreases hi
  {
    if lo == hi then []
    else Scan(log, h, lo, hi - 1) + (if log[hi - 1].parent == h then [hi - 1] else [])
  }

  lemma {:induction false} ScanBounds(log: seq<OutlineEntry>, h: Option<nat>, lo: nat, hi: nat)
    requires lo <= hi <= |log|
    ensures forall k :: 0 <= k < |Scan(log, h, lo, hi)| ==> lo <= Scan(log, h, lo, hi)[k] < hi
    decreases hi
  {
    if lo < hi {
      ScanBounds(log, h, lo, hi - 1);
    }
  }

  /** The outline item at position j of the log, with the items that name
      it as their parent (later in the log) as its children. */
  function DecodeAt(log: seq<OutlineEntry>, j: nat): Bookmark
    requires j < |log|
    decreases |log| - j, 1
  {
    ScanBounds(log, Some(j), j + 1, |log|);
    Bookmark(log[j].title, log[j].pageIndex, DecodeList(log, Scan(log, Some(j), j + 1, |log|), j))
  }

  function DecodeList(log: seq<OutlineEntry>, hs: seq<nat>, lower: int): (r: seq<Bookmark>)
    requires forall k :: 0 <= k < |hs| ==> lower < hs[k] < |log|
    decreases |log| - lower, 0, |hs|
    ensures |r| == |hs|
  {
    if hs == [] then [] else DecodeList(log, hs[..|hs| - 1], lower) + [DecodeAt(log, hs[|hs| - 1])]
  }

  /** The outline a PDF viewer shows for the log: the entries without a
      parent, each with its descendants. */
  function Decode(log: seq<OutlineEntry>): seq<Bookmark>
  {
    ScanBounds(log, None, 0, |log|);
    DecodeList(log, Scan(log, None, 0, |log|), -1)
  }

  /** The handles the children of a node receive. */
  function Starts(ts: seq<Tree>, base: nat, parent: Option<nat>): (r: seq<nat>)
    requires AllHaveParents(ts)
    decreases ts
    ensures |r| == |ts|
    ensures forall k :: 0 <= k < |r| ==> base <= r[k] < base + |EmitKids(ts, base, parent)|
  {
    if ts == [] then []
    else
      var front := EmitKids(ts[..|ts| - 1], base, parent);
      EmitLength(ts[|ts| - 1], base + |front|, parent);
      Starts(ts[..|ts| - 1], base, parent) + [base + |front|]
  }

  lemma {:induction false} EmitLength(t: Tree, base: nat, parent: Option<nat>)
    ensures HasParents(t) ==> |Emit(t, base, parent)| > 0
  {
  }

  /** L holds the entries E from position base on. */
  predicate At(L: seq<OutlineEntry>, base: nat, E: seq<OutlineEntry>) {
    base + |E| <= |L| && forall k :: 0 <= k < |E| ==> Holds(L, base, E, k)
  }

  /** Position base + k of L holds entry k of E. */
  predicate Holds(L: seq<OutlineEntry>, base: nat, E: seq<OutlineEntry>, k: nat) {
    base + k < |L| && k < |E| && L[base + k] == E[k]
  }

  /** No entry after position hi names a parent in [lo, hi). */
  predicate Closed(L: seq<OutlineEntry>, lo: nat, hi: nat) {
    forall k :: hi <= k < |L| ==> Outside(L, lo, hi, k)
  }

  /** Entry k of L names no parent in [lo, hi). */
  predicate Outside(L: seq<OutlineEntry>, lo: nat, hi: nat, k: nat)
    requires k < |L|
  {
    L[k].parent.Some? ==> !(lo <= L[k].parent.value < hi)
  }

  /** Inside the entries of a subtree, every entry but the first names a
      parent handle within the subtree, earlier than itself. */
  lemma {:induction false} EmitParents(t: Tree, b: nat, p: Option<nat>)
    requires HasParents(t)
    ensures var E := Emit(t, b, p);
      |E| > 0 && E[0] == OutlineEntry(t.title, t.pageNumber - 1, p) &&
      forall k :: 0 < k < |E| ==> E[k].parent.Some? && b <= E[k].parent.value < b + k
    decreases t, 1
  {
    var E := Emit(t, b, p);
    EmitKidsParents(t.kids, b + 1, Some(b));
    forall k | 0 < k < |E| ensures E[k].parent.Some? && b <= E[k].parent.value < b + k {
      assert E[k] == EmitKids(t.kids, b + 1, Some(b))[k - 1];
    }
  }

  /** Each entry of E names `p` as its parent, or an entry of E before
      itself (E starting at handle base). */
  predicate ParentsWithin(E: seq<OutlineEntry>, base: nat, p: Option<nat>) {
    forall k :: 0 <= k < |E| ==> E[k].parent == p || (E[k].parent.Some? && base <= E[k].parent.value < base + k)
  }

  lemma {:induction false} EmitKidsParents(ts: seq<Tree>, base: nat, p: Option<nat>)
    requires AllHaveParents(ts)
    ensures ParentsWithin(EmitKids(ts, base, p), base, p)
    decreases ts, 0
  {
    if ts != [] {
      var init := ts[..|ts| - 1];
      var front := EmitKids(init, base, p);
      var last := Emit(ts[|ts| - 1], base + |front|, p);
      EmitKidsParents(init, base, p);
      EmitParents(ts[|ts| - 1], base + |front|, p);
      var E := EmitKids(ts, base, p);
      forall k | 0 <= k < |E|
        ensures E[k].parent == p || (E[k].parent.Some? && base <= E[k].parent.value < base + k)
      {
        if k >= |front| {
          assert E[k] == last[k - |front|];
          if k > |front| {
            assert last[k - |front|].parent.Some? && base + |front| <= last[k - |front|].parent.value < base + k;
          }
        } else {
          assert E[k] == front[k];
        }
      }
    }
  }

  lemma {:induction false} ScanSplit(L: seq<OutlineEntry>, h: Option<nat>, a: nat, b: nat, c: nat)
    requires a <= b <= c <= |L|
    ensures Scan(L, h, a, c) == Scan(L, h, a, b) + Scan(L, h, b, c)
    decreases c - b
  {
    if b < c {
      ScanSplit(L, h, a, b, c - 1);
    }
  }

  lemma {:induction false} ScanNone(L: seq<OutlineEntry>, h: Option<nat>, a: nat, c: nat)
    requires a <= c <= |L|
    requires forall k :: a <= k < c ==> L[k].parent != h
    ensures Scan(L, h, a, c) == []
    decreases c - a
  {
    if a < c {
      ScanNone(L, h, a, c - 1);
    }
  }

  /** L holding two runs of entries one after the other holds each run. */
  lemma {:induction false} AtSplit(L: seq<OutlineEntry>, base: nat, front: seq<OutlineEntry>, last: seq<OutlineEntry>)
    requires At(L, base, front + last)
    ensures At(L, base, front) && At(L, base + |front|, last)
  {
    var E := front + last;
    forall k | 0 <= k < |front| ensures Holds(L, base, front, k) {
      assert Holds(L, base, E, k) && E[k] == front[k];
    }
    var s := base + |front|;
    forall k | 0 <= k < |last| ensures Holds(L, s, last, k) {
      assert Holds(L, base, E, |front| + k) && E[|front| + k] == last[k];
    }
  }

  /** Among the entries of one subtree only the first names the parent the
      subtree was exported under. */
  lemma {:induction false} ScanSubtree(L: seq<OutlineEntry>, t: Tree, s: nat, p: Option<nat>)
    requires HasParents(t)
    requires At(L, s, Emit(t, s, p))
    requires p.Some? ==> p.value < s
    ensures Scan(L, p, s, s + |Emit(t, s, p)|) == [s]
  {
    var E := Emit(t, s, p);
    EmitParents(t, s, p);
    assert forall k :: 0 < k < |E| ==> E[k].parent != p;
    ScanRun(L, E, s, p);
  }

  /** A run of entries whose first names p as its parent and no other
      does. */
  lemma {:induction false} ScanRun(L: seq<OutlineEntry>, E: seq<OutlineEntry>, s: nat, p: Option<nat>)
    requires At(L, s, E) && |E| > 0 && E[0].parent == p
    requires forall k :: 0 < k < |E| ==> E[k].parent != p
    ensures Scan(L, p, s, s + |E|) == [s]
  {
    assert Scan(L, p, s + 1, s + |E|) == [] by {
      forall k | s + 1 <= k < s + |E| ensures L[k].parent != p {
        assert Holds(L, s, E, k - s);
      }
      ScanNone(L, p, s + 1, s + |E|);
    }
    assert Scan(L, p, s, s + 1) == [s] by {
      assert Scan(L, p, s, s) == [];
      assert Holds(L, s, E, 0);
    }
    ScanSplit(L, p, s, s + 1, s + |E|);
  }

  /** The children of `parent` found among the entries of ts are exactly
      the first entries of each subtree. */
  lemma {:induction false} ScanKids(L: seq<OutlineEntry>, ts: seq<Tree>, base: nat, p: Option<nat>)
    requires AllHaveParents(ts)
    requires At(L, base, EmitKids(ts, base, p))
    requires p.Some? ==> p.value < base
    ensures Scan(L, p, base, base + |EmitKids(ts, base, p)|) == Starts(ts, base, p)
    decreases ts
  {
    if ts != [] {
      var init, t := ts[..|ts| - 1], ts[|ts| - 1];
      var front := EmitKids(init, base, p);
      var s := base + |front|;
      var last := Emit(t, s, p);
      assert At(L, base, front) && At(L, s, last) by {
        assert EmitKids(ts, base, p) == front + last;
        AtSplit(L, base, front, last);
      }
      assert AllHaveParents(init) && HasParents(t) by {
        assert forall i :: 0 <= i < |init| ==> init[i] == ts[i];
      }
      assert Scan(L, p, base, s) == Starts(init, base, p) by {
        ScanKids(L, init, base, p);
      }
      ScanKidsStep(L, t, base, p, s, Starts(init, base, p));
      StartsUnfold(ts, base, p);
    }
  }

  /** The last child's entries add exactly its first entry to the children
      found among the entries before it. */
  lemma {:induction false} ScanKidsStep(L: seq<OutlineEntry>, t: Tree, base: nat, p: Option<nat>, s: nat, found: seq<nat>)
    requires HasParents(t) && base <= s
    requires At(L, s, Emit(t, s, p)) && Scan(L, p, base, s) == found
    requires p.Some? ==> p.value < base
    ensures s + |Emit(t, s, p)| <= |L|
    ensures Scan(L, p, base, s + |Emit(t, s, p)|) == found + [s]
  {
    var e := s + |Emit(t, s, p)|;
    assert e <= |L| && Scan(L, p, s, e) == [s] by {
      ScanSubtree(L, t, s, p);
    }
    ScanJoin(L, p, base, s, e, found);
  }

  lemma {:induction false} ScanJoin(L: seq<OutlineEntry>, p: Option<nat>, base: nat, s: nat, e: nat, found: seq<nat>)
    requires base <= s <= e <= |L|
    requires Scan(L, p, base, s) == found && Scan(L, p, s, e) == [s]
    ensures Scan(L, p, base, e) == found + [s]
  {
    ScanSplit(L, p, base, s, e);
  }

  /** Decoding the log at the first entry of a subtree gives back the
      subtree's shape, provided nothing written later claims a parent inside
      the subtree. */
  lemma {:induction false} DecodeEmit(L: seq<OutlineEntry>, t: Tree, b: nat, p: Option<nat>)
    requires HasParents(t)
    requires At(L, b, Emit(t, b, p))
    requires Closed(L, b, b + |Emit(t, b, p)|)
    ensures b < |L| && DecodeAt(L, b) == Shape(t)
    decreases t, 1
  {
    var E := Emit(t, b, p);
    var K := EmitKids(t.kids, b + 1, Some(b));
    EmitParents(t, b, p);
    assert E == [E[0]] + K;
    assert L[b] == E[0] by {
      assert Holds(L, b, E, 0);
    }
    var b1, e := b + 1, b + |E|;
    assert At(L, b1, K) by {
      forall k | 0 <= k < |K| ensures Holds(L, b1, K, k) {
        assert Holds(L, b, E, 1 + k) && E[1 + k] == K[k];
      }
    }
    assert Closed(L, b1, e) by {
      forall k | e <= k < |L| ensures Outside(L, b1, e, k) {
        assert Outside(L, b, e, k);
      }
    }
    ScanKids(L, t.kids, b + 1, Some(b));
    ScanSplit(L, Some(b), b + 1, b + |E|, |L|);
    forall k | b + |E| <= k < |L| ensures L[k].parent != Some(b) {
      assert Outside(L, b, b + |E|, k);
    }
    ScanNone(L, Some(b), b + |E|, |L|);
    assert Scan(L, Some(b), b + 1, |L|) == Starts(t.kids, b + 1, Some(b));
    DecodeEmitKids(L, t.kids, b + 1, Some(b), b);
  }

  lemma {:induction false} DecodeEmitKids(L: seq<OutlineEntry>, ts: seq<Tree>, base: nat, p: Option<nat>, lower: int)
    requires AllHaveParents(ts)
    requires At(L, base, EmitKids(ts, base, p))
    requires Closed(L, base, base + |EmitKids(ts, base, p)|)
    requires p.Some? ==> p.value < base
    requires lower < base
    ensures base + |EmitKids(ts, base, p)| <= |L|
    ensures DecodeList(L, Starts(ts, base, p), lower) == ShapeKids(ts)
    decreases ts, 1
  {
    if ts != [] {
      var init := ts[..|ts| - 1];
      var front := EmitKids(init, base, p);
      var s := base + |front|;
      var t := ts[|ts| - 1];
      var last := Emit(t, s, p);
      assert EmitKids(ts, base, p) == front + last;
      assert At(L, base, front) && At(L, s, last) by {
        AtSplit(L, base, front, last);
      }
      assert AllHaveParents(init) && HasParents(t) by {
        assert forall i :: 0 <= i < |init| ==> init[i] == ts[i];
      }
      assert Closed(L, base, s) by {
        EmitParents(t, s, p);
        assert forall k :: 0 <= k < |last| && last[k].parent.Some? ==> !(base <= last[k].parent.value < s);
        ClosedBefore(L, base, s, last);
      }
      var e := s + |last|;
      assert Closed(L, s, e) by {
        forall k | e <= k < |L| ensures Outside(L, s, e, k) {
          assert Outside(L, base, e, k);
        }
      }
      DecodeEmitKidsStep(L, ts, init, t, base, p, lower, s);
      StartsUnfold(ts, base, p);
      assert ShapeKids(ts) == ShapeKids(init) + [Shape(t)];
    }
  }

  /** The last child's subtree decodes to its shape and joins the shapes
      decoded for the children before it. */
  lemma {:induction false} DecodeEmitKidsStep(L: seq<OutlineEntry>, ts: seq<Tree>, init: seq<Tree>, t: Tree, base: nat,
                                              p: Option<nat>, lower: int, s: nat)
    requires ts != [] && init == ts[..|ts| - 1] && t == ts[|ts| - 1]
    requires AllHaveParents(init) && HasParents(t)
    requires s == base + |EmitKids(init, base, p)|
    requires At(L, base, EmitKids(init, base, p)) && Closed(L, base, s)
    requires At(L, s, Emit(t, s, p)) && Closed(L, s, s + |Emit(t, s, p)|)
    requires p.Some? ==> p.value < base
    requires lower < base
    ensures s < |L|
    ensures DecodeList(L, Starts(init, base, p) + [s], lower) == ShapeKids(init) + [Shape(t)]
    decreases ts, 0
  {
    var hs := Starts(init, base, p);
    assert DecodeList(L, hs, lower) == ShapeKids(init) by {
      DecodeEmitKids(L, init, base, p, lower);
    }
    assert s < |L| && DecodeAt(L, s) == Shape(t) by {
      DecodeEmit(L, t, s, p);
    }
    DecodeJoin(L, hs, s, lower, ShapeKids(init), Shape(t));
  }

  /** One unfolding of EmitKids and Starts at the last child. */
  lemma {:induction false} StartsUnfold(ts: seq<Tree>, base: nat, p: Option<nat>)
    requires ts != [] && AllHaveParents(ts) && AllHaveParents(ts[..|ts| - 1])
    ensures var s := base + |EmitKids(ts[..|ts| - 1], base, p)|;
      base + |EmitKids(ts, base, p)| == s + |Emit(ts[|ts| - 1], s, p)| &&
      Starts(ts, base, p) == Starts(ts[..|ts| - 1], base, p) + [s]
  {
    var front := EmitKids(ts[..|ts| - 1], base, p);
    assert EmitKids(ts, base, p) == front + Emit(ts[|ts| - 1], base + |front|, p);
  }

  lemma {:induction false} DecodeJoin(L: seq<OutlineEntry>, hs: seq<nat>, s: nat, lower: int, found: seq<Bookmark>, b: Bookmark)
    requires forall k :: 0 <= k < |hs| ==> lower < hs[k] < |L|
    requires lower < s < |L|
    requires DecodeList(L, hs, lower) == found && DecodeAt(L, s) == b
    ensures DecodeList(L, hs + [s], lower) == found + [b]
  {
    assert (hs + [s])[..|hs|] == hs;
  }

  /** Entries from s on that name no parent in [base, s), followed by a
      part of the log closed over [base, s + |last|). */
  lemma {:induction false} ClosedBefore(L: seq<OutlineEntry>, base: nat, s: nat, last: seq<OutlineEntry>)
    requires base <= s && At(L, s, last) && Closed(L, base, s + |last|)
    requires forall k :: 0 <= k < |last| && last[k].parent.Some? ==> !(base <= last[k].parent.value < s)
    ensures Closed(L, base, s)
  {
    forall k | s <= k < |L| ensures Outside(L, base, s, k) {
      if k < s + |last| {
        assert Holds(L, s, last, k - s);
      } else {
        assert Outside(L, base, s + |last|, k);
      }
    }
  }

  /** add_to_pdf on a root whose descendants all have parents: reading the
      writer's log back as an outline gives exactly the root's children with
      their titles, 0-based page indexes and nesting. The parent handle of
      every entry is therefore the entry written for its parent node. */
  lemma {:induction false} ExportDecodes(t: Tree)
    requires t.isRoot && AllHaveParents(t.kids)
    ensures Decode(Emit(t, 0, None)) == ShapeKids(t.kids)
  {
    var L := Emit(t, 0, None);
    assert At(L, 0, EmitKids(t.kids, 0, None)) by {
      forall k | 0 <= k < |L| ensures Holds(L, 0, L, k) {
      }
    }
    ScanKids(L, t.kids, 0, None);
    DecodeEmitKids(L, t.kids, 0, None, -1);
  }

  // ---------------------------------------------------------------------
  // Listing: print_tree
  // ---------------------------------------------------------------------

  /** One step of a depth-first enumeration: a node, its depth below the
      starting node and its position among its siblings. */
  datatype Visit = Visit(node: Tree, depth: nat, index: nat)

  /** Depth-first enumeration of t in pre-order, children in list order. */
  function Enumerate(t: Tree, depth: nat, index: nat): seq<Visit>
    decreases t
  {
    [Visit(t, depth, index)] + EnumerateKids(t.kids, depth + 1)
  }

  function EnumerateKids(ts: seq<Tree>, depth: nat): seq<Visit>
    decreases ts
  {
    if ts == [] then []
    else EnumerateKids(ts[..|ts| - 1], depth) + Enumerate(ts[|ts| - 1], depth, |ts| - 1)
  }

  /** The enumeration visits the nodes of the export walk, in the same
      order. */
  lemma {:induction false} EnumerateFollowsNodes(t: Tree, depth: nat, index: nat)
    ensures |Enumerate(t, depth, index)| == |Nodes(t)|
    ensures forall k :: 0 <= k < |Nodes(t)| ==> Enumerate(t, depth, index)[k].node == Nodes(t)[k]
    decreases t, 1
  {
    EnumerateKidsFollowsNodes(t.kids, depth + 1);
    var E := Enumerate(t, depth, index);
    forall k | 0 < k < |Nodes(t)| ensures E[k].node == Nodes(t)[k] {
      assert E[k] == EnumerateKids(t.kids, depth + 1)[k - 1];
      assert Nodes(t)[k] == NodesOfKids(t.kids)[k - 1];
    }
  }

  lemma {:induction false} EnumerateKidsFollowsNodes(ts: seq<Tree>, depth: nat)
    ensures |EnumerateKids(ts, depth)| == |NodesOfKids(ts)|
    ensures forall k :: 0 <= k < |NodesOfKids(ts)| ==> EnumerateKids(ts, depth)[k].node == NodesOfKids(ts)[k]
    decreases ts, 0
  {
    if ts != [] {
      var init := ts[..|ts| - 1];
      EnumerateKidsFollowsNodes(init, depth);
      EnumerateFollowsNodes(ts[|ts| - 1], depth, |ts| - 1);
      var E := EnumerateKids(ts, depth);
      var N := NodesOfKids(ts);
      var n := |NodesOfKids(init)|;
      forall k | 0 <= k < |N| ensures E[k].node == N[k] {
        if k < n {
          assert E[k] == EnumerateKids(init, depth)[k];
          assert N[k] == NodesOfKids(init)[k];
        } else {
          assert E[k] == Enumerate(ts[|ts| - 1], depth, |ts| - 1)[k - n];
          assert N[k] == Nodes(ts[|ts| - 1])[k - n];
        }
      }
    }
  }

  /** A line of print_tree: three spaces per level of depth, the index among
      siblings in brackets, then the node's __repr__. */
  function Line(v: Visit): string
  {
    Spaces(3 * v.depth) + Indexed(v.index, Describe(v.node.title, v.node.pageNumber, |v.node.kids|))
  }

  /** A description after its index in brackets, "[index] d": the bracket
      opens it and the index and the description read back from the rest. */
  function Indexed(index: nat, d: string): (s: string)
    ensures s != [] && s[0] == '[' && ParseIndexed(s[1..]) == Some((index, d))
  {
    IndexedParses(index, d);
    var s := "[" + NatToString(index) + "] " + d;
    assert s[1..] == NatToString(index) + "] " + d;
    s
  }

  function Spaces(n: nat): (s: string)
    ensures |s| == n && forall k :: 0 <= k < n ==> s[k] == ' '
  {
    if n == 0 then [] else Spaces(n - 1) + " "
  }

  /** Lines print_tree(num, node, depth) prints for a node it was given. */
  function TreeLines(t: Tree, index: nat, depth: nat): seq<string>
    decreases t
  {
    [Line(Visit(t, depth, index))] + KidLines(t.kids, depth + 1)
  }

  /** Lines printed by the loop over the children at the given depth. */
  function KidLines(ts: seq<Tree>, depth: nat): seq<string>
    decreases ts
  {
    if ts == [] then []
    else KidLines(ts[..|ts| - 1], depth) + TreeLines(ts[|ts| - 1], |ts| - 1, depth)
  }

  /** One more child listed after the ones before it. */
  lemma {:induction false} KidLinesSnoc(head: seq<string>, before: seq<string>, after: seq<string>,
                     ts: seq<Tree>, i: nat, depth: nat)
    requires i < |ts|
    requires before == head + KidLines(ts[..i], depth)
    requires after == before + TreeLines(ts[i], i, depth)
    ensures after == head + KidLines(ts[..i + 1], depth)
  {
    assert ts[..i + 1] == ts[..i] + [ts[i]];
    KidLinesLast(ts[..i], ts[i], depth);
    AppendAssoc(head, KidLines(ts[..i], depth), TreeLines(ts[i], i, depth));
  }

  lemma {:induction false} PrefixSnoc<X>(s: seq<X>, i: nat)
    requires i < |s|
    ensures s[..i + 1] == s[..i] + [s[i]]
  {
  }

  lemma {:induction false} AppendAssoc<X>(a: seq<X>, b: seq<X>, c: seq<X>)
    ensures (a + b) + c == a + (b + c)
  {
  }

  lemma {:induction false} KidLinesLast(ts: seq<Tree>, t: Tree, depth: nat)
    ensures KidLines(ts + [t], depth) == KidLines(ts, depth) + TreeLines(t, |ts|, depth)
  {
    var s := ts + [t];
    assert s[..|s| - 1] == ts;
    assert s[|s| - 1] == t;
  }

  /** A print_tree line at depth 0 (the format print_children uses) gives
      back its index and description. */
  lemma {:induction false} ChildLineTextParses(index: nat, d: string)
    ensures ParseLine(Indexed(index, d)) == Some((0, index, d))
  {
    IndexedParses(index, d);
  }

  /** Each line of ls is the line of the visit at the same position. */
  predicate LinesOf(ls: seq<string>, vs: seq<Visit>) {
    |ls| == |vs| && forall k :: 0 <= k < |ls| ==> ls[k] == Line(vs[k])
  }

  lemma {:induction false} LinesOfAppend(l1: seq<string>, v1: seq<Visit>, l2: seq<string>, v2: seq<Visit>)
    requires LinesOf(l1, v1) && LinesOf(l2, v2)
    ensures LinesOf(l1 + l2, v1 + v2)
  {
    forall k | 0 <= k < |l1 + l2| ensures (l1 + l2)[k] == Line((v1 + v2)[k]) {
      if k >= |l1| {
        assert (l1 + l2)[k] == l2[k - |l1|];
        assert (v1 + v2)[k] == v2[k - |l1|];
      }
    }
  }

  /** print_tree() on t: every node below t, never t itself, in the
      depth-first enumeration order, each line formatted from its visit
      (top-level children at depth 1). */
  lemma {:induction false} PrintTreeIsEnumeration(t: Tree)
    ensures LinesOf(KidLines(t.kids, 1), Enumerate(t, 0, 0)[1..])
  {
    KidLinesAreEnumeration(t.kids, 1);
    assert Enumerate(t, 0, 0)[1..] == EnumerateKids(t.kids, 1);
  }

  lemma {:induction false} TreeLinesAreEnumeration(t: Tree, index: nat, depth: nat)
    ensures LinesOf(TreeLines(t, index, depth), Enumerate(t, depth, index))
    decreases t, 1
  {
    KidLinesAreEnumeration(t.kids, depth + 1);
    LinesOfAppend([Line(Visit(t, depth, index))], [Visit(t, depth, index)],
      KidLines(t.kids, depth + 1), EnumerateKids(t.kids, depth + 1));
  }

  lemma {:induction false} KidLinesAreEnumeration(ts: seq<Tree>, depth: nat)
    ensures LinesOf(KidLines(ts, depth), EnumerateKids(ts, depth))
    decreases ts, 0
  {
    if ts != [] {
      var init := ts[..|ts| - 1];
      KidLinesAreEnumeration(init, depth);
      TreeLinesAreEnumeration(ts[|ts| - 1], |ts| - 1, depth);
      LinesOfAppend(KidLines(init, depth), EnumerateKids(init, depth),
        TreeLines(ts[|ts| - 1], |ts| - 1, depth), Enumerate(ts[|ts| - 1], depth, |ts| - 1));
    }
  }

  /** Number of leading spaces of s. */
  function LeadingSpaces(s: string): (n: nat)
    ensures n <= |s|
  {
    if s != [] && s[0] == ' ' then 1 + LeadingSpaces(s[1..]) else 0
  }

  /** Reads a print_tree line back: depth, sibling index and the node's
      description. */
  function ParseLine(s: string): Option<(nat, nat, string)>
  {
    var n := LeadingSpaces(s);
    if n % 3 != 0 || n == |s| || s[n] != '[' then None
    else match ParseIndexed(s[n + 1..])
      case None => None
      case Some(p) => Some((n / 3, p.0, p.1))
  }

  /** Reads "<index>] <description>", the part of a line after its '['. */
  function ParseIndexed(rest: string): Option<(nat, string)>
  {
    var close := Find(rest, ']');
    if close + 2 > |rest| || rest[close..close + 2] != "] " then None
    else match ParseNat(rest[..close])
      case None => None
      case Some(index) => Some((index, rest[close + 2..]))
  }

  lemma {:induction false} IndexedParses(index: nat, d: string)
    ensures ParseIndexed(NatToString(index) + "] " + d) == Some((index, d))
  {
    var num := NatToString(index);
    var rest := num + "] " + d;
    assert rest == num + ("] " + d);
    FindDigits(num, "] " + d, ']');
    assert rest[..|num|] == num;
    assert rest[|num|..|num| + 2] == "] ";
    assert rest[|num| + 2..] == d;
    NatRoundTrip(index);
  }

  lemma {:induction false} LeadingSpacesOf(n: nat, s: string)
    requires s != [] && s[0] != ' '
    ensures LeadingSpaces(Spaces(n) + s) == n
  {
    if n > 0 {
      assert (Spaces(n) + s)[1..] == Spaces(n - 1) + s;
      LeadingSpacesOf(n - 1, s);
    }
  }

  lemma {:induction false} FindDigits(a: string, b: string, c: char)
    requires AllDigits(a) && !IsDigit(c) && |b| > 0 && b[0] == c
    ensures Find(a + b, c) == |a|
  {
    if a != [] {
      assert (a + b)[1..] == a[1..] + b;
      FindDigits(a[1..], b, c);
    }
  }

  /** Nothing is lost in a print_tree line: its depth, the node's index among
      its siblings and the node's description can be read back. */
  lemma {:induction false} LineParses(v: Visit)
    ensures ParseLine(Line(v)) == Some((v.depth, v.index, Describe(v.node.title, v.node.pageNumber, |v.node.kids|)))
  {
    LineTextParses(v.depth, v.index, Describe(v.node.title, v.node.pageNumber, |v.node.kids|));
  }

  lemma {:induction false} LineTextParses(depth: nat, index: nat, d: string)
    ensures ParseLine(Spaces(3 * depth) + Indexed(index, d)) == Some((depth, index, d))
  {
    var t := Indexed(index, d);
    var s := Spaces(3 * depth) + t;
    LeadingSpacesOf(3 * depth, t);
    assert s[3 * depth + 1..] == t[1..];
    IndexedParses(index, d);
  }

  /** The example tree A -> (B -> D), C is enumerated as
      (A,0), (B,1), (D,2), (C,1). */
  lemma {:induction false} EnumerationExample()
    ensures var D := Tree("D", 4, false, []);
      var B := Tree("B", 2, false, [D]);
      var C := Tree("C", 3, false, []);
      var A := Tree("A", 0, true, [B, C]);
      Enumerate(A, 0, 0) == [Visit(A, 0, 0), Visit(B, 1, 0), Visit(D, 2, 0), Visit(C, 1, 1)]
  {
    var D := Tree("D", 4, false, []);
    var B := Tree("B", 2, false, [D]);
    var C := Tree("C", 3, false, []);
    var A := Tree("A", 0, true, [B, C]);
    assert [B, C][..1] == [B];
    assert [B][..0] == [] && [D][..0] == [];
    assert EnumerateKids([D], 2) == Enumerate(D, 2, 0) == [Visit(D, 2, 0)];
    assert Enumerate(B, 1, 0) == [Visit(B, 1, 0), Visit(D, 2, 0)];
    assert EnumerateKids([B], 1) == Enumerate(B, 1, 0);
    assert Enumerate(C, 1, 1) == [Visit(C, 1, 1)];
    assert EnumerateKids([B, C], 1) == [Visit(B, 1, 0), Visit(D, 2, 0), Visit(C, 1, 1)];
  }
}

=== FILE: wrappers.dfy ===
/** Failure-carrying results used across the model. */
module Wrappers {

  datatype Option<+T> = None | Some(value: T)

  datatype Result<+R, +E> = Success(value: R) | Failure(error: E)

  datatype Outcome<+E> = Pass | Fail(error: E)

  /** The Python exceptions the modelled code can raise. */
  datatype PyError =
    | NoneHasNoAttribute   // AttributeError: an attribute of `None` was used
    | NotInList            // ValueError from list.index / list.remove
    | KeyError(key: int)   // a dict lookup of a missing key
    | IndexOverflow        // OverflowError: an index outside the C ssize_t range
}
